=== FILE: README.md ===
# Real-time fraud detection engine — a Dafny model

This project models the scoring core of a real-time fraud-detection
dashboard. Its parts:

- **The fraud engine.** It keeps a per-user behavioural baseline: last
  location, recent devices, average value and transaction count. It scores
  each incoming transaction with four deterministic rules and a simulated
  ML model, blends the two under a named strategy, decides between
  APPROVE, MANUAL_REVIEW and BLOCK, and updates the baseline.
- **The dashboard's state transitions.** These are the live stream, the
  review queue, the latency chart and buffer, the strategy rotation every
  100 transactions, the analyst's manual override, and the p99 index.
- **The analytics summary.** It computes the protected value, the top
  attack vectors, the geographic hot spots and the vulnerability index.
- **The log view.** It provides a severity and free-text filter and a
  per-severity style.

Everything impure in the original becomes a parameter:

- `Math.random()` draws become `Engine.Draws` (the time-out coin, the
  jitter and the signal pick) and a `seq<real>` for the seeded averages.
- The wall clock and `performance.now()` durations are passed in as values.
- The great-circle distance is an opaque function `Engine.Geo`.

JavaScript details are written out explicitly:

- `Math.round` is `Types.Round`, which is floor(x + 0.5).
- `Set` plus `slice(-5)` is `Seqs.Dedup` followed by `Seqs.LastN`.
- Insertion-ordered object maps are the association lists of `Tally`.
- The stable `Array.prototype.sort` is the stable insertion sort
  `Seqs.SortDesc`.

Modules:

- `Types`: the entities and `SYSTEM_CONFIG`.
- `Engine`: `FraudEngine.analyze` and the rules.
- `History`: the user cache.
- `EngineProperties`: end-to-end scenarios.
- `Analytics`: `calculatedSummary`.
- `Dashboard`: the `App` state updates.
- `Logs`: the log view.
- `Seqs`, `Tally`, `Text`, `Wrappers`: the supporting sequence, counter
  and string theory.

The constants and details fixed by the code:

- `analyze` weighs impossible travel, a velocity spike, an unknown device
  and a value anomaly at 45, 25, 20 and 30 points.
- The model times out with probability 1 % (a draw below 0.01).
- The simulated model score is a base of 30, plus 35 for a crypto
  merchant, 15 for a high-risk city and 10 for an amount over 1000, plus a
  jitter of up to 25, capped at 100. It is therefore never below 30
  (`Engine.SimulateMlInference`).
- The reported score caps the rounded final score, min(round(final), 100)
  (`Engine.CapScore`).
- `RiskAnalysis` in `types.ts` has no `ambiguitySignal` field, although
  `analyze` returns one. The model carries it as `Option<string>`.

## Model

| member | source | states |
|---|---|---|
| Types.Round | services/fraudEngine.ts:96-100 | `Math.round`: the nearest integer, halves rounding up |
| Engine.ApplyRules | services/fraudEngine.ts:41-64 | Each of the four flags is raised exactly when its rule fires: implied speed over 1000 km/h across more than 50 km (elapsed hours floored at 0.01), more than 5 recent transactions, a device not in the remembered list, an amount over ten times the average. The flags come in rule order without repeats, the two never-produced flags never appear, the rule score is the sum of the raised flags' weights, and it lies in 0..120 |
| Engine.RunRules | services/fraudEngine.ts:49-64 | The four rule checks raise exactly the flags whose conditions hold, in check order, and score 45/25/20/30 per raised flag |
| Engine.ChecksAccumulate | services/fraudEngine.ts:49-64 | Running the checks one after another equals appending each raised flag and adding its weight to the running total |
| Engine.RaisedAllMembers | services/fraudEngine.ts:49-64 | A flag is among the raised ones if and only if its condition holds |
| Engine.RaisedAllOrdered | services/fraudEngine.ts:49-64 | The raised flags follow rule order, so none repeats |
| Engine.RaisedAllBounded | services/fraudEngine.ts:41-64 | The rule score is never negative and never above 120 |
| Engine.SimulateMlInference | services/fraudEngine.ts:109-116 | The simulated model score is base plus jitter (base 30, +35 for a crypto merchant matched case-insensitively, +15 for Lagos, Moscow or Dubai, +10 above 1000) where that is at most 100, and 100 otherwise. Hence it is at most 100, at least 30, and at least 65 for a crypto merchant |
| Engine.Decide | services/fraudEngine.ts:78-87 | BLOCK if and only if final >= 85; MANUAL_REVIEW if and only if 60 <= final < 85; APPROVE if and only if final < 60 |
| Engine.PickSignal | services/fraudEngine.ts:86 | A draw in [k/6, (k+1)/6) selects the k-th of the six catalogue signals; a signal is picked exactly when the draw lies in [0, 1) |
| Engine.Signal | services/fraudEngine.ts:79-87 | A signal is attached only to MANUAL_REVIEW, and every MANUAL_REVIEW gets the catalogue signal its draw picks |
| Engine.Blend | services/fraudEngine.ts:76 | With non-negative scores and weights the blended final score is never negative |
| Engine.CapScore | services/fraudEngine.ts:96 | The reported score never exceeds 100 and is non-negative for a non-negative final score. It is the rounded final score below 99.5 and exactly 100 from 99.5 up |
| Engine.Score | services/fraudEngine.ts:66-87 | The model times out if and only if the coin is below 1 %. A time-out makes the model and final scores equal the rule score. Otherwise the model score is the simulated one for the jitter draw, in [30, 100], and the final score is the weighted blend. The decision follows the thresholds on the final score |
| Engine.Assess | services/fraudEngine.ts:34-107 | The returned analysis carries the rule flags, the transaction id, the strategy name, the duration and the time. `ruleOutput` is the integer rule score, `mlOutput` the rounded model score (equal to `ruleOutput` on fallback), `score` the capped rounded final score: at most 100, and at least 0 when both weights and the jitter draw are non-negative. The signal is the one `Engine.Signal` picks for the decision: present only for MANUAL_REVIEW, and for every MANUAL_REVIEW when the draws lie in [0, 1) |
| Engine.Analyze | services/fraudEngine.ts:34-107 | The analysis is computed from the stored baseline, or the default one for an unknown user. The cache is then updated for that user from that same baseline, and a well-formed cache stays well-formed |
| History.Lookup | services/fraudEngine.ts:39 | A known user gets the stored baseline. An unknown user gets the default: location (0, 0) at time 0, no devices, average 50, count 0 |
| History.RememberDevice | services/fraudEngine.ts:133 | The window holds at most 5 distinct devices, all taken from the old list or the new one. A new device ends up last. A device already in a proper window leaves it unchanged. Otherwise the window is the last five of the list with the device appended |
| History.WindowCases | services/fraudEngine.ts:133 | Deduplicating and then keeping the last five changes nothing for a known device, and is a plain append-and-truncate for a new one |
| History.Record | services/fraudEngine.ts:128-135 | Only the transaction's user entry changes or appears. Its count goes up by one, its location and time become the transaction's, and its average and user id carry over. Its device list is a proper window of at most five distinct devices; when the prior list was a proper window, as in every well-formed cache, the window holds the device and is unchanged if the device was already in it |
| History.RecordRemembersDevice | services/fraudEngine.ts:133 | The updated entry's device list is exactly the prior list with the transaction's device remembered in the window of five |
| History.RecordPreservesWellFormed | services/fraudEngine.ts:128-135 | After an update every entry is still filed under its own user id with at most five distinct devices |
| History.ReplayDistinct | services/fraudEngine.ts:133 | Feeding distinct devices one at a time through the window leaves exactly the last five of them |
| History.Seed | services/fraudEngine.ts:21-32 | Users 1..n are present and no one else; the entry under `user_i` is user i's seeded baseline: device `dev_i`, last seen in New York an hour before now, count 0, average 200 times its draw plus 20 |
| History.UserKeyInjective | services/fraudEngine.ts:23 | Two users' keys `user_${i}` coincide only for the same i |
| History.SeedLookup | services/fraudEngine.ts:21-32 | The entry stored under `user_i`, for 1 <= i <= n, is user i's seeded baseline |
| History.SeedShape | services/fraudEngine.ts:21-32 | The seeded cache is well-formed; every seeded user has count 0, was last seen in New York an hour before now, and has one device. With draws in [0, 1) every average lies in [20, 220) |
| History.SeedUserCache | services/fraudEngine.ts:21-32 | `user_1` .. `user_100` are all present and the seeded cache is well-formed |
| EngineProperties.FallbackIgnoresStrategy | services/fraudEngine.ts:66-76 | On a model time-out the strategy cannot change score or decision. The score is the rule score capped at 100, the model output equals the rule output, and the thresholds apply to the rule score |
| EngineProperties.RulesOnlyIgnoresModel | services/fraudEngine.ts:76 | Under rule weight 1 and model weight 0 the final score is the rule score, so the model's jitter changes neither score nor decision |
| EngineProperties.DeviceRememberedForNextTransaction | services/fraudEngine.ts:57-60 | In a well-formed cache, a user's second transaction from the same device is never flagged NEW_DEVICE |
| EngineProperties.CountAdvances | services/fraudEngine.ts:132 | Every analysis increments the user's recent transaction count by one |
| EngineProperties.UnknownUserFirstTransaction | services/fraudEngine.ts:118-126 | An unknown user's first transaction of 30 is flagged NEW_DEVICE but not HIGH_VALUE or VELOCITY_SPIKE |
| EngineProperties.NewYorkToTokyoInOneSecond | services/fraudEngine.ts:42-52 | A jump of 10850 km in one second is IMPOSSIBLE_TRAVEL and contributes at least 45 rule points |
| EngineProperties.SixPriorTransactionsSpike | services/fraudEngine.ts:53-56 | A user with 6 prior transactions triggers VELOCITY_SPIKE |
| EngineProperties.RuleScoreCountsFlag | services/fraudEngine.ts:49-64 | The rule score is at least the weight of any raised flag |
| Analytics.ProtectedValueIsBlockedSum | components/FraudAnalytics.tsx:21-22 | The sum over the blocked entries equals the running total that adds only blocked amounts |
| Analytics.VectorTallyCounts | components/FraudAnalytics.tsx:24-29 | Each flag's counter equals its number of occurrences over the blocked entries' flag lists, and only raised flags get a counter |
| Analytics.TopAttackVectors | components/FraudAnalytics.tsx:31-34 | At most five vectors, with distinct flags, in non-increasing count order. Each count is the exact number of occurrences of its flag. A raised flag left out means five vectors were kept, each at least as frequent |
| Analytics.VectorsComplete | components/FraudAnalytics.tsx:31-34 | A raised flag missing from the top five is outnumbered or tied by all five kept |
| Analytics.GeoTallyCounts | components/FraudAnalytics.tsx:36-43 | Each `city-country` counter equals the number of entries at that place |
| Analytics.GeoAttemptsAddUp | components/FraudAnalytics.tsx:36-43 | The place counters add up to the number of blocked entries |
| Analytics.Heatmap | components/FraudAnalytics.tsx:36-45 | At most four hot spots, naming distinct places, in non-increasing order. Each names a place of some entry and counts that place's entries exactly. A place left out means four were kept, each with at least as many attempts |
| Analytics.HeatmapFirstSeen | components/FraudAnalytics.tsx:36-43 | When several entries share a `city-country` key, a hot spot shows the place of the first entry with that key |
| Analytics.HotspotsComplete | components/FraudAnalytics.tsx:45 | A place missing from the heat map is outnumbered or tied by all four kept |
| Analytics.VulnerabilityIndex | components/FraudAnalytics.tsx:46 | The index lies in [0, 100]. Below 100 it is the blocked share times 300 rounded to the nearest integer, i.e. the share lies in [(2r-1)/600, (2r+1)/600). It is 0 exactly when under 1/600 of the stream is blocked, and 100 exactly when at least 199/600 is |
| Analytics.Summarize | components/FraudAnalytics.tsx:18-54 | No summary if and only if the stream is empty. Otherwise the protected value is the blocked total, the vectors and hot spots are taken over the blocked entries, and the index is that of the blocked count over the stream length |
| Logs.FilterLogs | components/LogsView.tsx:14-19 | Kept logs are an order-preserving selection. Each has the chosen severity and contains the search text (case-insensitive) in its message or id. Every matching log is kept as often as it occurs and no other; with no selector and an empty search everything is kept |
| Logs.MatchesMentions | components/LogsView.tsx:16-17 | A match means the lower-cased search text occurs at some position of the lower-cased message or id |
| Logs.SeverityStyles | components/LogsView.tsx:21-29 | Each of the four severities gets its own style, distinct from the others and from the fallback; any other value gets the slate fallback |
| Dashboard.StrategiesAreConvex | App.tsx:18-23 | There are four strategies, each with non-negative weights summing to 1 |
| Dashboard.PushStream | App.tsx:48-51 | The new item goes in front, followed by the old stream truncated so the whole holds at most 50 |
| Dashboard.EnqueueForReview | App.tsx:53-55 | The queue grows by exactly the item if and only if it is MANUAL_REVIEW; the existing queue is untouched |
| Dashboard.RoundCents | App.tsx:60 | `parseFloat(x.toFixed(2))` is a whole number of hundredths within half a hundredth of `x`; a tie rounds away from zero |
| Dashboard.PushLatencyPoint | App.tsx:57-64 | The chart is the history with the new point appended, cut to its last min(n + 1, 40) points: a history of fewer than 40 points keeps them all, and the new point comes last |
| Dashboard.PushLatency | App.tsx:75-76 | The buffer gains the latency at the end; it keeps every old entry below 50 and drops exactly its oldest entry from 50 on |
| Dashboard.P99Index | App.tsx:101 | The p99 position is floor(0.99 n), a valid index of a non-empty sorted buffer |
| Dashboard.Tick | App.tsx:66-73 | Every transaction increments the total. The strategy changes only when the total reaches a multiple of 100, and then to the next one cyclically |
| Dashboard.RotationSchedule | App.tsx:66-73 | After n transactions from the start, strategy (n div 100) mod 4 is active |
| Dashboard.Initial | App.tsx:27-42 | The dashboard starts with an empty stream, review queue, chart and buffer, nothing processed, the first strategy, transaction counter 0 and no selection, over the given engine cache; over a well-formed cache it satisfies the state invariant |
| Dashboard.Ingest | App.tsx:44-77 | The item heads the stream, the queue grows exactly on MANUAL_REVIEW, the rotation advances one tick, the counter increases, the engine cache is the outcome's, and the selection is untouched. The chart and buffer updates are stated by `Dashboard.IngestCharts` |
| Dashboard.IngestCharts | App.tsx:57-76 | The latency chart is the old chart with the transaction's point (time, latency to the hundredth, id) appended, cut to its last min(n + 1, 40) points. The buffer is the old buffer pushed with the duration, dropping its oldest entry from 50 on |
| Dashboard.IngestKeepsInvariant | App.tsx:44-77 | Ingesting preserves the stream, chart and buffer bounds, a valid strategy index, a well-formed cache and a review queue of MANUAL_REVIEW items only |
| Dashboard.OnTransaction | App.tsx:44-77 | The transaction is analysed under the active strategy and recorded. The user joins the engine cache, the stream head names that strategy, and the state invariant is kept |
| Dashboard.OverrideAll | App.tsx:81-83 | Exactly the items of the given transaction take the analyst's decision; everything else is unchanged |
| Dashboard.ManualAction | App.tsx:79-87 | The transaction leaves the review queue, which keeps every other item as often as it occurred and in order. Stream items of that transaction take the decision and change nothing else. A selected item of that transaction is overridden. No other state changes, and the invariant is kept |
| Seqs.Filter | components/FraudAnalytics.tsx:21 | `Array.prototype.filter`: an order-preserving selection holding every kept element as often as it occurs and nothing else |
| Seqs.Take | App.tsx:50 | `slice(0, n)`: the first min(n, length) elements, the whole sequence when it is short enough |
| Seqs.LastN | App.tsx:63 | `slice(-n)`: the last at most n elements |
| Seqs.Dedup | services/fraudEngine.ts:133 | `Array.from(new Set(...))`: the same elements without repeats |
| Seqs.DedupOrder | services/fraudEngine.ts:133 | The set's elements come in insertion order: an order-preserving selection of the input in which each element occurs in the input before the first occurrence of any later one |
| Seqs.SortDesc | components/FraudAnalytics.tsx:33 | The sort by descending count yields a permutation in non-increasing key order |
| Seqs.TopK | components/FraudAnalytics.tsx:31-34 | An element left out of the first k of the sorted list means k were kept, none with a smaller key |
| Tally.CollectSound | components/FraudAnalytics.tsx:24-29 | Counting into an insertion-ordered object gives one counter per distinct key, each equal to the key's occurrences and all summing to the sample count |
| Tally.FirstInfo | components/FraudAnalytics.tsx:38-41 | The reference payload for a key: absent exactly when no sample has that key, and otherwise the payload of a sample with that key before which no sample has that key |
| Tally.CollectFirstSeen | components/FraudAnalytics.tsx:38-41 | Every counter of the insertion-ordered object keeps the payload of the first sample with its key |
| Text.ContainsIff | components/LogsView.tsx:16-17 | `includes` holds exactly when the text occurs at some position |
| Text.NatToStringInjective | services/fraudEngine.ts:23 | The decimal rendering of a template literal's number determines the number |

## Left out

- `calculateDistance` (the haversine formula, services/fraudEngine.ts:137-143) is an opaque parameter `Geo`, because floating-point trigonometry has no exact model here. Scenarios supply the one distance they need.
- `services/geminiService.ts` and `services/streamSimulator.ts` (the AI advisory call and the random transaction generator) are not part of this model: they are network and randomness around the core.
- `Math.random()`, `Date.now()`, `performance.now()` and `toLocaleTimeString()` are parameters. The model says nothing about their distributions, beyond requiring draws to lie in [0, 1) where a bound is stated.
- Engine.Analyze: the processing time is the caller-supplied duration, not a measured one, and the asynchronous `Promise` is not modelled.
- History.Record: the stored last location drops the city and country that the source spreads into it, because no rule reads them.
- History.SeedUserCache: does not restate the per-user facts of `History.Seed`, which it is built from.
- History.Seed: takes one time `now` for every user, while the source reads `Date.now()` afresh on each iteration, so seeded users may differ by a few milliseconds in their last-seen time.
- Text.Lower: lower-cases ASCII letters only; `toLowerCase` also folds non-ASCII letters.
- Dashboard.P99Index: uses the exact product 0.99 n, not its binary floating-point value.
- Seqs.SortDesc: does not state the tie order of the stable sort, although the insertion sort it uses is stable.
- Analytics.TopAttackVectors: inherits the unstated tie order of `Seqs.SortDesc`; flags with equal counts may come in either order as far as the contract says.
- Analytics.Heatmap: inherits the unstated tie order of `Seqs.SortDesc`; places with equal attempts may come in either order as far as the contract says.
- Binary floating point in general: all amounts, weights and scores are exact reals.
- `VELOCITY_WINDOW_MS` and `LATENCY_BUDGET_MS` are declared in `Types` but used by no rule, as in the source.
- The metrics interval (throughput, average latency, fraud rate, model drift) and SLA display are left out: they average the buffer for display only. The p99 index it uses is `Dashboard.P99Index`.
- `handleChartSelection` and the React staleness of `selectedItem` are left out. `Dashboard.ManualAction` reads the selection from the state it is given.
- JSX rendering, tabs, timers, the architecture view, the explainability and advisory panels, and log generation are UI, not logic.

=== FILE: analytics.dfy ===
/**
 The threat summary of the analytics panel (`calculatedSummary`): the value
 of blocked transactions, the most frequent rule flags among them, the
 places they come from, and a vulnerability index.
 */
module Analytics {
  import opened Wrappers
  import opened Types
  import opened Seqs
  import opened Tally

  datatype AttackVector = AttackVector(flag: RiskFlag, count: nat)

  /** A city and country as the heat map groups them. */
  datatype Place = Place(city: string, country: string)

  datatype GeoHotspot = GeoHotspot(city: string, country: string, attempts: nat)

  datatype Summary = Summary(
    totalValueProtected: real,
    vulnerabilityIndex: int,
    topAttackVectors: seq<AttackVector>,
    geographicHeatmap: seq<GeoHotspot>)

  const MaxAttackVectors: nat := 5
  const MaxHotspots: nat := 4

  predicate IsBlocked(item: StreamItem) {
    item.analysis.decision == Block
  }

  function Blocked(stream: seq<StreamItem>): seq<StreamItem> {
    Filter(stream, IsBlocked)
  }

  // ---------------------------------------------------------------- value protected

  /** The `reduce` over blocked entries: the sum of their amounts. */
  function SumAmounts(items: seq<StreamItem>): real
    decreases |items|
  {
    if items == [] then 0.0 else items[0].tx.amount + SumAmounts(items[1..])
  }

  /** Reference definition: every entry adds its amount when blocked and nothing otherwise. */
  function BlockedValue(stream: seq<StreamItem>): real
    decreases |stream|
  {
    if stream == [] then 0.0
    else (if IsBlocked(stream[0]) then stream[0].tx.amount else 0.0) + BlockedValue(stream[1..])
  }

  lemma {:induction false} ProtectedValueIsBlockedSum(stream: seq<StreamItem>)
    ensures SumAmounts(Blocked(stream)) == BlockedValue(stream)
    decreases |stream|
  {
    if stream != [] {
      ProtectedValueIsBlockedSum(stream[1..]);
      if IsBlocked(stream[0]) {
        assert Blocked(stream) == [stream[0]] + Blocked(stream[1..]);
        assert ([stream[0]] + Blocked(stream[1..]))[1..] == Blocked(stream[1..]);
      } else {
        assert Blocked(stream) == Blocked(stream[1..]);
      }
    }
  }

  // ---------------------------------------------------------------- attack vectors

  function FlagSamplesOf(flags: seq<RiskFlag>): (ss: seq<Sample<RiskFlag, ()>>)
    ensures |ss| == |flags|
    ensures forall i :: 0 <= i < |flags| ==> ss[i] == Sample(flags[i], ())
  {
    seq(|flags|, i requires 0 <= i < |flags| => Sample(flags[i], ()))
  }

  /** Every flag of every entry, entry by entry, as the nested `forEach` visits them. */
  function FlagSamples(items: seq<StreamItem>): seq<Sample<RiskFlag, ()>>
    decreases |items|
  {
    if items == [] then [] else FlagSamplesOf(items[0].analysis.flags) + FlagSamples(items[1..])
  }

  /** Reference definition: how often `f` occurs across the flag lists of `items`. */
  function FlagOccurrences(items: seq<StreamItem>, f: RiskFlag): nat
    decreases |items|
  {
    if items == [] then 0 else Count(items[0].analysis.flags, f) + FlagOccurrences(items[1..], f)
  }

  lemma {:induction false} KeyCountFlags(flags: seq<RiskFlag>, f: RiskFlag)
    ensures KeyCount(FlagSamplesOf(flags), f) == Count(flags, f)
    decreases |flags|
  {
    if flags != [] {
      assert FlagSamplesOf(flags)[1..] == FlagSamplesOf(flags[1..]);
      KeyCountFlags(flags[1..], f);
    }
  }

  lemma {:induction false} FlagSamplesCount(items: seq<StreamItem>, f: RiskFlag)
    ensures KeyCount(FlagSamples(items), f) == FlagOccurrences(items, f)
    decreases |items|
  {
    if items != [] {
      KeyCountAppend(FlagSamplesOf(items[0].analysis.flags), FlagSamples(items[1..]), f);
      KeyCountFlags(items[0].analysis.flags, f);
      FlagSamplesCount(items[1..], f);
    }
  }

  /** `vectorMap`: one counter per flag, in the order flags were first met. */
  function VectorTally(items: seq<StreamItem>): seq<Bucket<RiskFlag, ()>> {
    Collect(FlagSamples(items))
  }

  /** Before sorting and truncation every flag's counter is its number of occurrences, and only raised flags get one. */
  lemma VectorTallyCounts(items: seq<StreamItem>, f: RiskFlag)
    ensures CountOf(VectorTally(items), f) == FlagOccurrences(items, f)
    ensures f in Keys(VectorTally(items)) <==> FlagOccurrences(items, f) > 0
  {
    CollectSound(FlagSamples(items));
    FlagSamplesCount(items, f);
    if f in Keys(VectorTally(items)) {
      var k :| 0 <= k < |VectorTally(items)| && Keys(VectorTally(items))[k] == f;
      CountOfMember(VectorTally(items), VectorTally(items)[k]);
    }
    if FlagOccurrences(items, f) > 0 {
      var j := SampledKey(FlagSamples(items), f);
    }
  }

  /** The counters sorted by count, largest first, ties in first-seen order. */
  function RankedVectors(items: seq<StreamItem>): seq<Bucket<RiskFlag, ()>> {
    SortDesc(VectorTally(items), CountKey)
  }

  function ToVectors(t: seq<Bucket<RiskFlag, ()>>): (r: seq<AttackVector>)
    ensures |r| == |t|
    ensures forall i :: 0 <= i < |t| ==> r[i] == AttackVector(t[i].key, t[i].count)
  {
    seq(|t|, i requires 0 <= i < |t| => AttackVector(t[i].key, t[i].count))
  }

  /** The first five counters in ranked order. */
  function TopVectorBuckets(items: seq<StreamItem>): seq<Bucket<RiskFlag, ()>> {
    Take(RankedVectors(items), MaxAttackVectors)
  }

  /** Every selected counter holds the exact number of occurrences of its flag. */
  lemma VectorCountsExact(items: seq<StreamItem>)
    ensures forall i :: 0 <= i < |TopVectorBuckets(items)| ==>
      1 <= TopVectorBuckets(items)[i].count == FlagOccurrences(items, TopVectorBuckets(items)[i].key)
  {
    var tally := VectorTally(items);
    var ranked := RankedVectors(items);
    var top := TopVectorBuckets(items);
    CollectSound(FlagSamples(items));
    forall i | 0 <= i < |top|
      ensures 1 <= top[i].count == FlagOccurrences(items, top[i].key)
    {
      assert top[i] == ranked[i];
      assert top[i] in multiset(ranked);
      CountOfMember(tally, top[i]);
      FlagSamplesCount(items, top[i].key);
    }
  }

  /** No flag is selected twice. */
  lemma VectorsDistinct(items: seq<StreamItem>)
    ensures var r := ToVectors(TopVectorBuckets(items));
      forall i, j :: 0 <= i < j < |r| ==> r[i].flag != r[j].flag
  {
    var top := TopVectorBuckets(items);
    var r := ToVectors(top);
    CollectSound(FlagSamples(items));
    TopKeysDistinct(VectorTally(items), MaxAttackVectors);
    assert top == Take(SortDesc(VectorTally(items), CountKey), MaxAttackVectors);
    forall i, j | 0 <= i < j < |r|
      ensures r[i].flag != r[j].flag
    {
      assert r[i].flag == top[i].key && r[j].flag == top[j].key;
    }
  }

  /**
   `topAttackVectors`: at most five distinct flags, by non-increasing count,
   each with its exact number of occurrences among `items`. A flag that
   occurs but is left out means the list is full of flags occurring at
   least as often.
   */
  function TopAttackVectors(items: seq<StreamItem>): (r: seq<AttackVector>)
    ensures |r| <= MaxAttackVectors
    ensures forall i, j :: 0 <= i < j < |r| ==> r[i].flag != r[j].flag
    ensures forall i, j :: 0 <= i < j < |r| ==> r[i].count >= r[j].count
    ensures forall i :: 0 <= i < |r| ==> 1 <= r[i].count == FlagOccurrences(items, r[i].flag)
    ensures forall f :: FlagOccurrences(items, f) > 0 && (forall i :: 0 <= i < |r| ==> r[i].flag != f) ==>
      |r| == MaxAttackVectors && forall i :: 0 <= i < |r| ==> r[i].count >= FlagOccurrences(items, f)
  {
    var top := TopVectorBuckets(items);
    VectorCountsExact(items);
    VectorsDistinct(items);
    var r := ToVectors(top);
    assert forall i, j :: 0 <= i < j < |top| ==> top[i].count >= top[j].count by {
      assert SortedDesc(RankedVectors(items), CountKey);
    }
    forall f | FlagOccurrences(items, f) > 0 && (forall i :: 0 <= i < |r| ==> r[i].flag != f)
      ensures |r| == MaxAttackVectors && forall i :: 0 <= i < |r| ==> r[i].count >= FlagOccurrences(items, f)
    {
      VectorsComplete(items, f);
      forall i | 0 <= i < |r|
        ensures r[i].count >= FlagOccurrences(items, f)
      {
        assert top[i] in top;
      }
    }
    r
  }

  lemma VectorsComplete(items: seq<StreamItem>, f: RiskFlag)
    requires FlagOccurrences(items, f) > 0
    requires forall i :: 0 <= i < |TopVectorBuckets(items)| ==> TopVectorBuckets(items)[i].key != f
    ensures |TopVectorBuckets(items)| == MaxAttackVectors
    ensures forall b :: b in TopVectorBuckets(items) ==> b.count >= FlagOccurrences(items, f)
  {
    var tally := VectorTally(items);
    var top := TopVectorBuckets(items);
    CollectSound(FlagSamples(items));
    FlagSamplesCount(items, f);
    var j := SampledKey(FlagSamples(items), f);
    assert f in Keys(tally);
    var k :| 0 <= k < |tally| && Keys(tally)[k] == f;
    var b := tally[k];
    CountOfMember(tally, b);
    assert b.count == FlagOccurrences(items, f);
    assert b !in top;
    TopK(tally, CountKey, MaxAttackVectors, b);
  }

  /** A key counted at least once was sampled somewhere. */
  lemma {:induction false} SampledKey<K, V>(s: seq<Sample<K, V>>, k: K) returns (j: nat)
    requires KeyCount(s, k) > 0
    ensures j < |s| && s[j].key == k
    decreases |s|
  {
    if s[0].key == k {
      j := 0;
    } else {
      var j' := SampledKey(s[1..], k);
      j := j' + 1;
    }
  }

  // ---------------------------------------------------------------- heat map

  /** The record key `${city}-${country}`. */
  function PlaceKey(city: string, country: string): string {
    city + "-" + country
  }

  function GeoSample(item: StreamItem): Sample<string, Place> {
    Sample(PlaceKey(item.tx.location.city, item.tx.location.country),
           Place(item.tx.location.city, item.tx.location.country))
  }

  function GeoSamples(items: seq<StreamItem>): (ss: seq<Sample<string, Place>>)
    ensures |ss| == |items|
    ensures forall i :: 0 <= i < |items| ==> ss[i] == GeoSample(items[i])
  {
    seq(|items|, i requires 0 <= i < |items| => GeoSample(items[i]))
  }

  /** Reference definition: the number of entries filed under `key`. */
  function Attempts(items: seq<StreamItem>, key: string): nat
    decreases |items|
  {
    if items == [] then 0
    else (if PlaceKey(items[0].tx.location.city, items[0].tx.location.country) == key then 1 else 0)
         + Attempts(items[1..], key)
  }

  lemma {:induction false} GeoSamplesCount(items: seq<StreamItem>, key: string)
    ensures KeyCount(GeoSamples(items), key) == Attempts(items, key)
    decreases |items|
  {
    if items != [] {
      assert GeoSamples(items)[1..] == GeoSamples(items[1..]);
      GeoSamplesCount(items[1..], key);
    }
  }

  /** `geoMap`: one counter per place key, keeping the first entry's city and country. */
  function GeoTally(items: seq<StreamItem>): seq<Bucket<string, Place>> {
    Collect(GeoSamples(items))
  }

  /** Before sorting and truncation every place key's counter is its number of entries. */
  lemma GeoTallyCounts(items: seq<StreamItem>, key: string)
    ensures CountOf(GeoTally(items), key) == Attempts(items, key)
  {
    CollectSound(GeoSamples(items));
    GeoSamplesCount(items, key);
  }

  /** Before truncation the attempts of all places add up to the number of entries. */
  lemma GeoAttemptsAddUp(items: seq<StreamItem>)
    ensures Total(GeoTally(items)) == |items|
  {
    CollectSound(GeoSamples(items));
  }

  function ToHotspots(t: seq<Bucket<string, Place>>): (r: seq<GeoHotspot>)
    ensures |r| == |t|
    ensures forall i :: 0 <= i < |t| ==> r[i] == GeoHotspot(t[i].info.city, t[i].info.country, t[i].count)
  {
    seq(|t|, i requires 0 <= i < |t| => GeoHotspot(t[i].info.city, t[i].info.country, t[i].count))
  }

  /** The place of every entry. */
  function Places(items: seq<StreamItem>): (ps: seq<Place>)
    ensures |ps| == |items|
    ensures forall i :: 0 <= i < |items| ==> ps[i] == Place(items[i].tx.location.city, items[i].tx.location.country)
  {
    seq(|items|, i requires 0 <= i < |items| => Place(items[i].tx.location.city, items[i].tx.location.country))
  }

  /** The first four place counters in ranked order. */
  function TopPlaceBuckets(items: seq<StreamItem>): seq<Bucket<string, Place>> {
    Take(SortDesc(GeoTally(items), CountKey), MaxHotspots)
  }

  /** Every selected counter is filed under its place's key, names an entry's place, and counts exactly. */
  lemma PlaceCountsExact(items: seq<StreamItem>)
    ensures forall i :: 0 <= i < |TopPlaceBuckets(items)| ==>
      var b := TopPlaceBuckets(items)[i];
      && b.key == PlaceKey(b.info.city, b.info.country)
      && b.info in Places(items)
      && 1 <= b.count == Attempts(items, b.key)
  {
    var samples := GeoSamples(items);
    var tally := GeoTally(items);
    var ranked := SortDesc(tally, CountKey);
    var top := TopPlaceBuckets(items);
    CollectSound(samples);
    forall i | 0 <= i < |top|
      ensures top[i].key == PlaceKey(top[i].info.city, top[i].info.country)
      ensures top[i].info in Places(items)
      ensures 1 <= top[i].count == Attempts(items, top[i].key)
    {
      assert top[i] == ranked[i];
      assert top[i] in multiset(ranked);
      var k :| 0 <= k < |tally| && tally[k] == top[i];
      assert Samples(tally)[k] in samples;
      var m :| 0 <= m < |items| && samples[m] == Samples(tally)[k];
      assert Places(items)[m] == top[i].info;
      CountOfMember(tally, top[i]);
      GeoSamplesCount(items, top[i].key);
    }
  }

  lemma PlacesComplete(items: seq<StreamItem>, key: string)
    requires Attempts(items, key) > 0
    requires forall i :: 0 <= i < |TopPlaceBuckets(items)| ==> TopPlaceBuckets(items)[i].key != key
    ensures |TopPlaceBuckets(items)| == MaxHotspots
    ensures forall b :: b in TopPlaceBuckets(items) ==> b.count >= Attempts(items, key)
  {
    var tally := GeoTally(items);
    var top := TopPlaceBuckets(items);
    CollectSound(GeoSamples(items));
    GeoSamplesCount(items, key);
    var j := SampledKey(GeoSamples(items), key);
    assert key in Keys(tally);
    var k :| 0 <= k < |tally| && Keys(tally)[k] == key;
    var b := tally[k];
    CountOfMember(tally, b);
    assert b !in top;
    TopK(tally, CountKey, MaxHotspots, b);
  }

  /** The selected places in ranked order, by non-increasing attempts. */
  lemma HotspotsSorted(items: seq<StreamItem>)
    ensures var r := ToHotspots(TopPlaceBuckets(items));
      forall i, j :: 0 <= i < j < |r| ==> r[i].attempts >= r[j].attempts
  {
    assert SortedDesc(SortDesc(GeoTally(items), CountKey), CountKey);
  }

  /** No place key is selected twice. */
  lemma HotspotsDistinct(items: seq<StreamItem>)
    ensures var r := ToHotspots(TopPlaceBuckets(items));
      forall i, j :: 0 <= i < j < |r| ==> PlaceKey(r[i].city, r[i].country) != PlaceKey(r[j].city, r[j].country)
  {
    var top := TopPlaceBuckets(items);
    var r := ToHotspots(top);
    CollectSound(GeoSamples(items));
    TopKeysDistinct(GeoTally(items), MaxHotspots);
    assert top == Take(SortDesc(GeoTally(items), CountKey), MaxHotspots);
    PlaceCountsExact(items);
    forall i, j | 0 <= i < j < |r|
      ensures PlaceKey(r[i].city, r[i].country) != PlaceKey(r[j].city, r[j].country)
    {
      assert PlaceKey(r[i].city, r[i].country) == top[i].key;
      assert PlaceKey(r[j].city, r[j].country) == top[j].key;
    }
  }

  /** Every selected place is the place of an entry and carries the exact number of entries under its key. */
  lemma HotspotsExact(items: seq<StreamItem>)
    ensures var r := ToHotspots(TopPlaceBuckets(items));
      forall i :: 0 <= i < |r| ==>
        && Place(r[i].city, r[i].country) in Places(items)
        && 1 <= r[i].attempts == Attempts(items, PlaceKey(r[i].city, r[i].country))
  {
    var top := TopPlaceBuckets(items);
    var r := ToHotspots(top);
    PlaceCountsExact(items);
    forall i | 0 <= i < |r|
      ensures Place(r[i].city, r[i].country) in Places(items)
      ensures 1 <= r[i].attempts == Attempts(items, PlaceKey(r[i].city, r[i].country))
    {
      assert Place(r[i].city, r[i].country) == top[i].info;
    }
  }

  /** A place key that occurs but is not selected leaves four places with at least as many attempts. */
  lemma HotspotsComplete(items: seq<StreamItem>, key: string)
    requires Attempts(items, key) > 0
    requires var r := ToHotspots(TopPlaceBuckets(items));
      forall i :: 0 <= i < |r| ==> PlaceKey(r[i].city, r[i].country) != key
    ensures var r := ToHotspots(TopPlaceBuckets(items));
      |r| == MaxHotspots && forall i :: 0 <= i < |r| ==> r[i].attempts >= Attempts(items, key)
  {
    var top := TopPlaceBuckets(items);
    var r := ToHotspots(top);
    PlaceCountsExact(items);
    forall i | 0 <= i < |top|
      ensures top[i].key != key
    {
      assert PlaceKey(r[i].city, r[i].country) == top[i].key;
    }
    PlacesComplete(items, key);
    forall i | 0 <= i < |r|
      ensures r[i].attempts >= Attempts(items, key)
    {
      assert top[i] in top;
    }
  }

  /**
   When several entries share a `city-country` key, the hot spot shows the
   place of the first of them: the record keeps the place it stored when
   the key was first seen.
   */
  lemma HeatmapFirstSeen(items: seq<StreamItem>)
    ensures forall i :: 0 <= i < |Heatmap(items)| ==>
      FirstInfo(GeoSamples(items), PlaceKey(Heatmap(items)[i].city, Heatmap(items)[i].country))
        == Some(Place(Heatmap(items)[i].city, Heatmap(items)[i].country))
  {
    var samples := GeoSamples(items);
    var tally := GeoTally(items);
    var ranked := SortDesc(tally, CountKey);
    var top := TopPlaceBuckets(items);
    var r := Heatmap(items);
    assert r == ToHotspots(top);
    CollectFirstSeen(samples);
    PlaceCountsExact(items);
    forall i | 0 <= i < |r|
      ensures FirstInfo(samples, PlaceKey(r[i].city, r[i].country)) == Some(Place(r[i].city, r[i].country))
    {
      assert top[i] == ranked[i];
      assert top[i] in multiset(ranked);
      var k :| 0 <= k < |tally| && tally[k] == top[i];
      assert Place(r[i].city, r[i].country) == top[i].info;
      assert PlaceKey(r[i].city, r[i].country) == top[i].key;
    }
  }

  /**
   `geographicHeatmap`: at most four distinct places, by non-increasing attempts, each
   the place of some entry and carrying the exact number of entries under
   its key. A place key that occurs but is left out means the list is full
   of places with at least as many attempts.
   */
  function Heatmap(items: seq<StreamItem>): (r: seq<GeoHotspot>)
    ensures |r| <= MaxHotspots
    ensures forall i, j :: 0 <= i < j < |r| ==> PlaceKey(r[i].city, r[i].country) != PlaceKey(r[j].city, r[j].country)
    ensures forall i, j :: 0 <= i < j < |r| ==> r[i].attempts >= r[j].attempts
    ensures forall i :: 0 <= i < |r| ==> Place(r[i].city, r[i].country) in Places(items)
    ensures forall i :: 0 <= i < |r| ==> 1 <= r[i].attempts == Attempts(items, PlaceKey(r[i].city, r[i].country))
    ensures forall key ::
      (Attempts(items, key) > 0 && forall i :: 0 <= i < |r| ==> PlaceKey(r[i].city, r[i].country) != key) ==>
      |r| == MaxHotspots && forall i :: 0 <= i < |r| ==> r[i].attempts >= Attempts(items, key)
  {
    var r := ToHotspots(TopPlaceBuckets(items));
    HotspotsSorted(items);
    HotspotsExact(items);
    HotspotsDistinct(items);
    forall key | Attempts(items, key) > 0 && (forall i :: 0 <= i < |r| ==> PlaceKey(r[i].city, r[i].country) != key)
      ensures |r| == MaxHotspots && forall i :: 0 <= i < |r| ==> r[i].attempts >= Attempts(items, key)
    {
      HotspotsComplete(items, key);
    }
    r
  }

  // ---------------------------------------------------------------- index

  /**
   `min(round(blocked / max(total, 1) * 300), 100)`: between 0 and 100; it is
   0 exactly when fewer than one entry in 600 is blocked and 100 exactly when
   at least 199 in 600 are; in between it is the `r` whose band
   `[(2r - 1) / 600, (2r + 1) / 600)` holds the blocked share.
   */
  function VulnerabilityIndex(blocked: nat, total: nat): (r: int)
    ensures 0 <= r <= 100
    ensures r == 0 <==> 600 * blocked < MaxNat(total, 1)
    ensures r == 100 <==> 600 * blocked >= 199 * MaxNat(total, 1)
    ensures r < 100 ==> (2 * r - 1) * MaxNat(total, 1) <= 600 * blocked < (2 * r + 1) * MaxNat(total, 1)
  {
    var m := MaxNat(total, 1);
    var x := blocked as real / m as real * 300.0;
    ShareBelowHalf(blocked, m);
    ShareAboveTop(blocked, m);
    ShareRounds(blocked, m, Round(x));
    MinInt(Round(x), 100)
  }

  /**
   The share rounds to `k` exactly when `600 * blocked` lies in the
   half-open band of width `2 * m` centred on `2 * k * m`.
   */
  lemma ShareRounds(blocked: nat, m: nat, k: int)
    requires m >= 1
    requires k == Round(blocked as real / m as real * 300.0)
    ensures (2 * k - 1) * m <= 600 * blocked < (2 * k + 1) * m
  {
    ShareTimes(blocked, m);
    RoundBand(blocked as real / m as real * 300.0, k, m, blocked);
  }

  /** A value within half of `k`, scaled by `m`, pins `600 * b` to the band around `2 * k * m`. */
  lemma RoundBand(x: real, k: int, m: int, b: int)
    requires m >= 1
    requires x * m as real == 300.0 * b as real
    requires k as real - 0.5 <= x < k as real + 0.5
    ensures (2 * k - 1) * m <= 600 * b < (2 * k + 1) * m
  {
    var kr, mr := k as real, m as real;
    BandScale(x, kr, mr, x * mr, kr * mr);
    CastProduct(2 * k - 1, m);
    CastProduct(2 * k + 1, m);
  }

  /** Multiplying a band around `k` by a positive factor; `xm` and `km` name the products. */
  lemma BandScale(x: real, k: real, m: real, xm: real, km: real)
    requires m > 0.0
    requires xm == x * m && km == k * m
    requires k - 0.5 <= x < k + 0.5
    ensures 2.0 * km - m <= 2.0 * xm
    ensures 2.0 * xm < 2.0 * km + m
  {
    var lo, hi := x - (k - 0.5), k + 0.5 - x;
    assert lo * m >= 0.0 by {
      if lo > 0.0 {
        assert lo * m > 0.0;
      }
    }
    assert hi * m > 0.0;
    assert lo * m == xm - km + 0.5 * m;
    assert hi * m == km + 0.5 * m - xm;
  }

  /** Converting a product of integers to a real. */
  lemma CastProduct(a: int, b: int)
    ensures (a * b) as real == a as real * b as real
  {
  }

  /** Scaling both sides by a positive factor keeps a strict comparison. */
  lemma ScaleLess(a: real, c: real, m: real)
    requires m > 0.0
    ensures a < c <==> a * m < c * m
  {
    if a < c {
      assert (c - a) * m > 0.0;
    }
    if a * m < c * m {
      assert (c - a) * m > 0.0;
    }
  }

  /** Scaling a share of `m` back by `m` gives its numerator. */
  lemma ShareTimes(blocked: nat, m: nat)
    requires m >= 1
    ensures blocked as real / m as real * 300.0 * m as real == 300.0 * blocked as real
  {
    var q := blocked as real / m as real;
    assert q * m as real == blocked as real;
    assert q * 300.0 * m as real == (q * m as real) * 300.0;
  }

  /** A share below one part in 600 rounds to 0, restated over the integers. */
  lemma ShareBelowHalf(blocked: nat, m: nat)
    requires m >= 1
    ensures blocked as real / m as real * 300.0 < 0.5 <==> 600 * blocked < m
  {
    var x := blocked as real / m as real * 300.0;
    ShareTimes(blocked, m);
    ScaleLess(x, 0.5, m as real);
    assert (600 * blocked) as real == 2.0 * (300.0 * blocked as real);
  }

  /** A share of at least 199 parts in 600 rounds to 100, restated over the integers. */
  lemma ShareAboveTop(blocked: nat, m: nat)
    requires m >= 1
    ensures blocked as real / m as real * 300.0 >= 99.5 <==> 600 * blocked >= 199 * m
  {
    var x := blocked as real / m as real * 300.0;
    ShareTimes(blocked, m);
    ScaleLess(x, 99.5, m as real);
    assert (600 * blocked) as real == 2.0 * (300.0 * blocked as real);
    assert (199 * m) as real == 2.0 * (99.5 * m as real);
  }

  function MaxNat(a: nat, b: nat): nat {
    if a >= b then a else b
  }

  // ---------------------------------------------------------------- summary

  /**
   `calculatedSummary`: nothing for an empty stream; otherwise the value of
   the blocked entries (blocked entries add their amount, others nothing),
   the top attack vectors and hot spots among the blocked entries, and the
   vulnerability index of the blocked share.
   */
  function Summarize(stream: seq<StreamItem>): (r: Option<Summary>)
    ensures r.None? <==> stream == []
    ensures r.Some? ==>
      && r.value.totalValueProtected == BlockedValue(stream)
      && r.value.topAttackVectors == TopAttackVectors(Blocked(stream))
      && r.value.geographicHeatmap == Heatmap(Blocked(stream))
      && r.value.vulnerabilityIndex == VulnerabilityIndex(|Blocked(stream)|, |stream|)
      && 0 <= r.value.vulnerabilityIndex <= 100
      && (r.value.vulnerabilityIndex == 0 <==> 600 * |Blocked(stream)| < |stream|)
      && (r.value.vulnerabilityIndex == 100 <==> 600 * |Blocked(stream)| >= 199 * |stream|)
  {
    if stream == [] then None
    else
      var blocked := Blocked(stream);
      ProtectedValueIsBlockedSum(stream);
      Some(Summary(
        SumAmounts(blocked),
        VulnerabilityIndex(|blocked|, |stream|),
        TopAttackVectors(blocked),
        Heatmap(blocked)))
  }
}

=== FILE: dashboard.dfy ===
/**
 The dashboard's state updates (`handleNewTransaction` and
 `handleManualAction`): the live stream, the review queue, the latency
 series, the processed-transaction counter with its strategy rotation, and
 the analyst's override of a decision.
 */
module Dashboard {
  import opened Wrappers
  import opened Types
  import opened Seqs
  import opened History
  import opened Engine

  /** The strategies the dashboard rotates through. */
  const Strategies: seq<Strategy> := [
    Strategy("Balanced-Ensemble-v1", "1.2.0", 0.6, 0.4, "Standard risk balancing."),
    Strategy("Strict-Geo-Fencing", "2.0.1", 0.3, 0.7, "Aggressive impossible travel detection."),
    Strategy("High-Confidence-ML", "3.5.0", 0.85, 0.15, "Heavy reliance on neural patterns."),
    Strategy("Retail-Aggressive", "1.0.4", 0.5, 0.5, "Tuned for seasonal spending spikes.")
  ]

  /** The number of strategies in the rotation. */
  const StrategyCount: nat := 4

  /** Transactions between two strategy rotations. */
  const RotationPeriod: nat := 100
  const LatencyHistorySize: nat := 40
  const LatencyBufferSize: nat := 50

  datatype LatencyPoint = LatencyPoint(time: string, latency: real, id: string)

  datatype AppState = AppState(
    engine: Store,
    stream: seq<StreamItem>,
    reviewQueue: seq<StreamItem>,
    latencyHistory: seq<LatencyPoint>,
    strategyIndex: nat,
    totalProcessed: nat,
    txCounter: nat,
    latencyBuffer: seq<real>,
    selected: Option<StreamItem>)

  /** Every strategy weighs with non-negative weights summing to one. */
  lemma StrategiesAreConvex()
    ensures |Strategies| == StrategyCount
    ensures forall i :: 0 <= i < |Strategies| ==>
      && 0.0 <= Strategies[i].ruleWeight && 0.0 <= Strategies[i].mlWeight
      && Strategies[i].ruleWeight + Strategies[i].mlWeight == 1.0
  {
  }

  // ---------------------------------------------------------------- stream and queue

  /**
   `[{tx, analysis}, ...prev].slice(0, MAX_STREAM_SIZE)`: the newest item
   first, then the previous stream in order, at most 50 items.
   */
  function PushStream(stream: seq<StreamItem>, item: StreamItem): (r: seq<StreamItem>)
    ensures |r| == MinInt(|stream| + 1, MaxStreamSize)
    ensures r[0] == item
    ensures r[1..] == stream[..|r| - 1]
  {
    Take([item] + stream, MaxStreamSize)
  }

  /** The review queue grows by the item, at its end, exactly when the item awaits review. */
  function EnqueueForReview(queue: seq<StreamItem>, item: StreamItem): (r: seq<StreamItem>)
    ensures |r| == |queue| + 1 <==> item.analysis.decision == ManualReview
    ensures |r| == |queue| || |r| == |queue| + 1
    ensures r[..|queue|] == queue
    ensures |r| == |queue| + 1 ==> r[|queue|] == item
  {
    if item.analysis.decision == ManualReview then queue + [item] else queue
  }

  // ---------------------------------------------------------------- latency

  /**
   `parseFloat(x.toFixed(2))`: a whole number of hundredths within half a
   hundredth of `x`, a tie going away from zero.
   */
  function RoundCents(x: real): (r: real)
    ensures (r * 100.0).Floor as real == r * 100.0
    ensures -0.005 <= r - x <= 0.005
    ensures 0.0 <= x ==> -0.005 < r - x
    ensures x < 0.0 ==> r - x < 0.005
  {
    if x < 0.0 then
      var c := Cents(-x);
      var n := (c * 100.0).Floor;
      assert (-c) * 100.0 == (-n) as real;
      -c
    else Cents(x)
  }

  /** The nearest hundredth, halves upwards. */
  function Cents(x: real): (r: real)
    ensures (r * 100.0).Floor as real == r * 100.0
    ensures x - 0.005 < r <= x + 0.005
  {
    var n := Round(x * 100.0);
    assert x * 100.0 - 0.5 < n as real <= x * 100.0 + 0.5;
    var r := n as real / 100.0;
    assert r * 100.0 == n as real;
    r
  }

  /**
   The chart series: the new point appended, only the last 40 points kept;
   a shorter chart keeps all its points.
   */
  function PushLatencyPoint(history: seq<LatencyPoint>, point: LatencyPoint): (r: seq<LatencyPoint>)
    ensures |r| == MinInt(|history| + 1, LatencyHistorySize)
    ensures |r| == LatencyHistorySize || r == history + [point]
    ensures |r| <= LatencyHistorySize
    ensures |r| > 0 && r[|r| - 1] == point
    ensures |r| <= |history| + 1
    ensures r == (history + [point])[|history| + 1 - |r|..]
  {
    LastN(history + [point], LatencyHistorySize)
  }

  /**
   `push` then at most one `shift`: the newest latency is last; a buffer
   that held at most 50 latencies still does; below 50 nothing is dropped,
   from 50 on the oldest latency is.
   */
  function PushLatency(buffer: seq<real>, latency: real): (r: seq<real>)
    ensures |r| > 0 && r[|r| - 1] == latency
    ensures |buffer| <= LatencyBufferSize ==> |r| <= LatencyBufferSize
    ensures r == buffer + [latency] || r == (buffer + [latency])[1..]
    ensures |buffer| < LatencyBufferSize ==> r == buffer + [latency]
    ensures |buffer| >= LatencyBufferSize ==> r == (buffer + [latency])[1..]
  {
    var next := buffer + [latency];
    if |next| > LatencyBufferSize then next[1..] else next
  }

  /** The p99 position `floor(n * 0.99)` in a sorted buffer of `n` latencies. */
  function P99Index(n: nat): (r: nat)
    ensures n > 0 ==> r < n
    ensures r as real <= n as real * 0.99 < r as real + 1.0
  {
    (99 * n) / 100
  }

  // ---------------------------------------------------------------- rotation

  /** The processed-transaction total and the index of the active strategy. */
  datatype Rotation = Rotation(total: nat, index: nat)

  /**
   One more processed transaction: the strategy advances (cyclically) exactly
   when the new total is a multiple of 100, and the index stays a valid
   position in the strategy list.
   */
  function Tick(r: Rotation): (r': Rotation)
    ensures r'.total == r.total + 1
    ensures r'.index != r.index ==> r'.total % RotationPeriod == 0
    ensures r'.total % RotationPeriod == 0 && r.index < StrategyCount ==> r'.index == (r.index + 1) % StrategyCount
    ensures r.index < StrategyCount ==> r'.index < StrategyCount
  {
    var next := r.total + 1;
    Rotation(next, if next % RotationPeriod == 0 then (r.index + 1) % StrategyCount else r.index)
  }

  function Ticks(r: Rotation, n: nat): Rotation
    decreases n
  {
    if n == 0 then r else Tick(Ticks(r, n - 1))
  }

  /** From a fresh dashboard, after `n` transactions the active strategy is number `(n / 100) mod 4`. */
  lemma {:induction false} RotationSchedule(n: nat)
    ensures Ticks(Rotation(0, 0), n) == Rotation(n, (n / RotationPeriod) % StrategyCount)
    decreases n
  {
    if n > 0 {
      RotationSchedule(n - 1);
      ScheduleStep(n);
    }
  }

  /** One tick moves the schedule from `n - 1` processed transactions to `n`. */
  lemma ScheduleStep(n: nat)
    requires n > 0
    ensures Tick(Rotation(n - 1, ((n - 1) / RotationPeriod) % StrategyCount))
         == Rotation(n, (n / RotationPeriod) % StrategyCount)
  {
    var q := (n - 1) / RotationPeriod;
    var r := Rotation(n - 1, q % 4);
    PeriodStep(n);
    if n % RotationPeriod == 0 {
      CyclicSuccessor(q);
      assert Tick(r).index == (q % 4 + 1) % 4;
    } else {
      assert Tick(r).index == q % 4;
    }
  }

  lemma CyclicSuccessor(q: nat)
    ensures (q % 4 + 1) % 4 == (q + 1) % 4
  {
    var a := q / 4;
    var b := q % 4;
    assert q == 4 * a + b;
    if b == 3 {
      assert q + 1 == 4 * (a + 1);
    } else {
      assert q + 1 == 4 * a + (b + 1);
    }
  }

  /** The number of completed periods grows by one exactly when a period completes. */
  lemma PeriodStep(n: nat)
    requires n > 0
    ensures n % RotationPeriod == 0 ==> n / RotationPeriod == (n - 1) / RotationPeriod + 1
    ensures n % RotationPeriod != 0 ==> n / RotationPeriod == (n - 1) / RotationPeriod
  {
    var q := (n - 1) / RotationPeriod;
    var m := (n - 1) % RotationPeriod;
    assert n == RotationPeriod * q + m + 1;
    if m == RotationPeriod - 1 {
      assert n == RotationPeriod * (q + 1);
    } else {
      assert n == RotationPeriod * q + (m + 1) && m + 1 < RotationPeriod;
    }
  }

  // ---------------------------------------------------------------- handlers

  /** What the dashboard keeps bounded and consistent between events. */
  predicate Invariant(st: AppState) {
    && |st.stream| <= MaxStreamSize
    && |st.latencyHistory| <= LatencyHistorySize
    && |st.latencyBuffer| <= LatencyBufferSize
    && st.strategyIndex < StrategyCount
    && WellFormed(st.engine)
    && forall i :: 0 <= i < |st.reviewQueue| ==> st.reviewQueue[i].analysis.decision == ManualReview
  }

  /**
   The dashboard before the first transaction: empty stream, review queue,
   chart and latency buffer, nothing processed, the first strategy active
   and nothing selected, over the engine's cache.
   */
  function Initial(engine: Store): (st: AppState)
    ensures st.engine == engine
    ensures st.stream == [] && st.reviewQueue == [] && st.latencyHistory == [] && st.latencyBuffer == []
    ensures st.totalProcessed == 0 && st.strategyIndex == 0 && st.txCounter == 0
    ensures st.selected == None
    ensures WellFormed(engine) ==> Invariant(st)
  {
    AppState(engine, [], [], [], 0, 0, 0, [], None)
  }

  /**
   The view updates of `handleNewTransaction` once the engine has answered
   with `out`: the item heads the stream, joins the review queue exactly
   when it awaits review, its latency closes the chart series and the
   latency buffer, and the processed total ticks the strategy rotation.
   `clock` is the time-of-day text of the chart point.
   */
  function Ingest(st: AppState, tx: Transaction, out: Outcome, clock: string): (r: AppState)
    ensures r.engine == out.store
    ensures r.stream == PushStream(st.stream, StreamItem(tx, out.analysis))
    ensures r.stream[0] == StreamItem(tx, out.analysis)
    ensures r.reviewQueue == EnqueueForReview(st.reviewQueue, StreamItem(tx, out.analysis))
    ensures |r.reviewQueue| == |st.reviewQueue| + 1 <==> out.analysis.decision == ManualReview
    ensures Rotation(r.totalProcessed, r.strategyIndex) == Tick(Rotation(st.totalProcessed, st.strategyIndex))
    ensures r.txCounter == st.txCounter + 1
    ensures r.selected == st.selected
  {
    var item := StreamItem(tx, out.analysis);
    var rot := Tick(Rotation(st.totalProcessed, st.strategyIndex));
    var queue := EnqueueForReview(st.reviewQueue, item);
    AppState(
      out.store,
      PushStream(st.stream, item),
      queue,
      PushLatencyPoint(st.latencyHistory, LatencyPoint(clock, RoundCents(out.analysis.processingTimeMs), tx.id)),
      rot.index,
      rot.total,
      st.txCounter + 1,
      PushLatency(st.latencyBuffer, out.analysis.processingTimeMs),
      st.selected)
  }

  /**
   The latency chart keeps its latest points and ends with `tx`'s point: its
   time of day and its latency to the hundredth; it is at most 40 points
   long. The latency buffer keeps its latest entries and ends with the
   reported processing time.
   */
  lemma IngestCharts(st: AppState, tx: Transaction, out: Outcome, clock: string)
    ensures var r := Ingest(st, tx, out, clock);
      && r.latencyHistory
         == PushLatencyPoint(st.latencyHistory, LatencyPoint(clock, RoundCents(out.analysis.processingTimeMs), tx.id))
      && r.latencyBuffer == PushLatency(st.latencyBuffer, out.analysis.processingTimeMs)
      && |r.latencyHistory| > 0
      && r.latencyHistory[|r.latencyHistory| - 1]
         == LatencyPoint(clock, RoundCents(out.analysis.processingTimeMs), tx.id)
      && r.latencyHistory[..|r.latencyHistory| - 1] == st.latencyHistory[|st.latencyHistory| + 1 - |r.latencyHistory|..]
      && |r.latencyHistory| <= LatencyHistorySize
      && |r.latencyBuffer| > 0 && r.latencyBuffer[|r.latencyBuffer| - 1] == out.analysis.processingTimeMs
      && (r.latencyBuffer[..|r.latencyBuffer| - 1] == st.latencyBuffer
          || r.latencyBuffer[..|r.latencyBuffer| - 1] == st.latencyBuffer[1..])
  {
    var r := Ingest(st, tx, out, clock);
    var point := LatencyPoint(clock, RoundCents(out.analysis.processingTimeMs), tx.id);
    var h := st.latencyHistory + [point];
    assert r.latencyHistory == h[|h| - |r.latencyHistory|..];
    assert r.latencyHistory[..|r.latencyHistory| - 1] == h[|h| - |r.latencyHistory|..|h| - 1];
    var b := st.latencyBuffer + [out.analysis.processingTimeMs];
    assert b[..|b| - 1] == st.latencyBuffer;
    if r.latencyBuffer != b {
      assert r.latencyBuffer == b[1..];
      assert r.latencyBuffer[..|r.latencyBuffer| - 1] == b[1..|b| - 1];
    }
  }

  /** The view updates keep the dashboard's bounds, given a well-formed cache from the engine. */
  lemma IngestKeepsInvariant(st: AppState, tx: Transaction, out: Outcome, clock: string)
    requires Invariant(st) && WellFormed(out.store)
    ensures Invariant(Ingest(st, tx, out, clock))
  {
    var r := Ingest(st, tx, out, clock);
    assert |r.latencyHistory| <= LatencyHistorySize;
    assert |r.latencyBuffer| <= LatencyBufferSize;
    forall i | 0 <= i < |r.reviewQueue|
      ensures r.reviewQueue[i].analysis.decision == ManualReview
    {
      if i >= |st.reviewQueue| {
        assert r.reviewQueue == st.reviewQueue + [StreamItem(tx, out.analysis)];
      }
    }
  }

  /**
   `handleNewTransaction`: analyses `tx` under the active strategy, then
   updates the views. The engine's history cache is the one `analyze` left
   behind, and the dashboard's invariant is kept.
   */
  function OnTransaction(st: AppState, tx: Transaction, draws: Draws, elapsedMs: real, now: int,
                         clock: string, geo: Geo): (r: AppState)
    requires st.strategyIndex < StrategyCount
    ensures r == Ingest(st, tx, Analyze(st.engine, tx, Strategies[st.strategyIndex], draws, elapsedMs, now, geo), clock)
    ensures r.stream[0].analysis.strategyName == Strategies[st.strategyIndex].name
    ensures r.engine.Keys == st.engine.Keys + {tx.userId}
    ensures Invariant(st) ==> Invariant(r)
  {
    var out := Analyze(st.engine, tx, Strategies[st.strategyIndex], draws, elapsedMs, now, geo);
    assert out.analysis.strategyName == Strategies[st.strategyIndex].name;
    assert out.store.Keys == st.engine.Keys + {tx.userId};
    assert WellFormed(st.engine) ==> WellFormed(out.store);
    IngestOutcome(st, tx, out, clock);
    Ingest(st, tx, out, clock)
  }

  /** What ingesting an outcome keeps from it: its strategy, its cache's users, and the invariant. */
  lemma IngestOutcome(st: AppState, tx: Transaction, out: Outcome, clock: string)
    ensures var r := Ingest(st, tx, out, clock);
      && r.stream[0].analysis.strategyName == out.analysis.strategyName
      && r.engine.Keys == out.store.Keys
      && (Invariant(st) && (WellFormed(st.engine) ==> WellFormed(out.store)) ==> Invariant(r))
  {
    if Invariant(st) && (WellFormed(st.engine) ==> WellFormed(out.store)) {
      IngestKeepsInvariant(st, tx, out, clock);
    }
  }

  /** The item with its decision replaced by the analyst's. */
  function Override(item: StreamItem, action: Decision): StreamItem {
    item.(analysis := item.analysis.(decision := action))
  }

  /** `prev.map(...)`: every item of transaction `id` takes the decision `action`. */
  function OverrideAll(stream: seq<StreamItem>, id: string, action: Decision): (r: seq<StreamItem>)
    ensures |r| == |stream|
    ensures forall i :: 0 <= i < |stream| && stream[i].tx.id == id ==>
      r[i].tx == stream[i].tx && r[i].analysis == stream[i].analysis.(decision := action)
    ensures forall i :: 0 <= i < |stream| && stream[i].tx.id != id ==> r[i] == stream[i]
  {
    seq(|stream|, i requires 0 <= i < |stream| =>
      if stream[i].tx.id == id then Override(stream[i], action) else stream[i])
  }

  /**
   `handleManualAction`: the analyst's decision on transaction `id`. The
   review queue loses every entry of `id` and keeps every other entry, as
   often as it occurred and in order; the
   stream keeps its length, order and every other field, with the decision
   of `id`'s entries replaced; the selected item follows when it is `id`.
   */
  function ManualAction(st: AppState, id: string, action: Decision): (r: AppState)
    ensures IsSubsequence(r.reviewQueue, st.reviewQueue)
    ensures forall i :: 0 <= i < |r.reviewQueue| ==> r.reviewQueue[i].tx.id != id
    ensures forall x :: Count(r.reviewQueue, x) == if x.tx.id != id then Count(st.reviewQueue, x) else 0
    ensures forall i :: 0 <= i < |st.reviewQueue| && st.reviewQueue[i].tx.id != id ==> st.reviewQueue[i] in r.reviewQueue
    ensures |r.stream| == |st.stream|
    ensures forall i :: 0 <= i < |st.stream| ==>
      && r.stream[i].tx == st.stream[i].tx
      && r.stream[i].analysis.(decision := st.stream[i].analysis.decision) == st.stream[i].analysis
      && r.stream[i].analysis.decision == (if st.stream[i].tx.id == id then action else st.stream[i].analysis.decision)
    ensures st.selected.Some? && st.selected.value.tx.id == id ==> r.selected == Some(Override(st.selected.value, action))
    ensures !(st.selected.Some? && st.selected.value.tx.id == id) ==> r.selected == st.selected
    ensures r.(reviewQueue := st.reviewQueue, stream := st.stream, selected := st.selected) == st
    ensures Invariant(st) ==> Invariant(r)
  {
    var queue := Filter(st.reviewQueue, (item: StreamItem) => item.tx.id != id);
    var selected := if st.selected.Some? && st.selected.value.tx.id == id
                    then Some(Override(st.selected.value, action)) else st.selected;
    st.(reviewQueue := queue, stream := OverrideAll(st.stream, id, action), selected := selected)
  }
}

=== FILE: engine.dfy ===
/**
 The scoring engine (`FraudEngine.analyze`): four additive rules, a
 simulated model score with a simulated time-out, the strategy blend, the
 decision thresholds and the single history write per transaction.

 Everything impure is a parameter: the three `Math.random()` draws of one
 call (`Draws`), the wall-clock duration and the current time, and the
 great-circle distance function (`Geo`).
 */
module Engine {
  import opened Wrappers
  import opened Types
  import opened Seqs
  import opened Text
  import opened History

  /** The `Math.random()` values one call of `analyze` consumes, in order of use. */
  datatype Draws = Draws(failCoin: real, jitterDraw: real, signalDraw: real) {
    /** What `Math.random()` promises: every draw lies in [0, 1). */
    predicate Valid() {
      && 0.0 <= failCoin < 1.0
      && 0.0 <= jitterDraw < 1.0
      && 0.0 <= signalDraw < 1.0
    }
  }

  /** Great-circle distance in km from (lat1, lng1) to (lat2, lng2). */
  type Geo = (real, real, real, real) -> real

  /** Probability of the simulated model time-out. */
  const FailureRate: real := 0.01

  const MillisPerHour: real := 3600000.0

  /** The catalogue a MANUAL_REVIEW decision draws its explanation from. */
  const AmbiguitySignals: seq<string> := [
    "Mismatched Browser Entropy: Language headers do not match IP geolocation locale.",
    "Proxy/VPN Leak: Traffic originating from a known residential proxy network used for bulk scraping.",
    "Behavioral Anomaly: Transaction occurs outside of typical user wake/sleep cycle with high-value merchant.",
    "Velocity Cluster: Device hash associated with 3+ distinct user accounts in the last 60 minutes.",
    "Card Testing Pattern: Sequential transactions with small rounding variations at a low-verification merchant.",
    "High-Risk Sequence: First transaction after 90 days of inactivity directed to a high-liquidity merchant."
  ]

  const HighRiskCities: seq<string> := ["Lagos", "Moscow", "Dubai"]

  // ---------------------------------------------------------------- rules

  /** The points each rule flag is worth; flags the engine never raises are worth nothing. */
  function Weight(f: RiskFlag): int {
    match f
    case ImpossibleTravel => 45
    case VelocitySpike => 25
    case NewDevice => 20
    case HighValue => 30
    case RiskyGeo => 0
    case PatternMismatch => 0
  }

  function SumWeights(flags: seq<RiskFlag>): int
    decreases |flags|
  {
    if flags == [] then 0 else Weight(flags[0]) + SumWeights(flags[1..])
  }

  lemma {:induction false} SumWeightsAppend(a: seq<RiskFlag>, b: seq<RiskFlag>)
    ensures SumWeights(a + b) == SumWeights(a) + SumWeights(b)
    decreases |a|
  {
    if a == [] {
      assert a + b == b;
    } else {
      assert (a + b)[1..] == a[1..] + b;
      SumWeightsAppend(a[1..], b);
    }
  }

  /** The position of a flag in the order in which the rules are checked. */
  function Rank(f: RiskFlag): nat {
    match f
    case ImpossibleTravel => 0
    case VelocitySpike => 1
    case NewDevice => 2
    case HighValue => 3
    case RiskyGeo => 4
    case PatternMismatch => 5
  }

  /** Distance from where the user was last seen to where the transaction happens. */
  function TravelDistance(h: UserHistory, tx: Transaction, geo: Geo): real {
    geo(h.lastLocation.lat, h.lastLocation.lng, tx.location.lat, tx.location.lng)
  }

  /**
   Implied speed over the elapsed time, the elapsed time floored at 0.01 h,
   exceeds the configured limit, over more than 50 km.
   */
  predicate TravelImpossible(h: UserHistory, tx: Transaction, geo: Geo) {
    var distance := TravelDistance(h, tx, geo);
    var hours := (tx.timestamp - h.lastLocation.timestamp) as real / MillisPerHour;
    distance / MaxReal(hours, 0.01) > SpeedOfLightKmh && distance > 50.0
  }

  predicate VelocitySpiking(h: UserHistory) {
    h.recentTransactionCount > 5
  }

  predicate DeviceUnknown(h: UserHistory, tx: Transaction) {
    tx.device.id !in h.lastDeviceIds
  }

  predicate ValueHigh(h: UserHistory, tx: Transaction) {
    tx.amount > h.avgTransactionValue * 10.0
  }

  /** The flags raised so far and the points accumulated for them. */
  datatype RuleTrace = RuleTrace(flags: seq<RiskFlag>, score: int)

  /** Flags appear in strictly increasing rule order. */
  predicate RankOrdered(flags: seq<RiskFlag>) {
    forall i, j :: 0 <= i < j < |flags| ==> Rank(flags[i]) < Rank(flags[j])
  }

  /** One rule: when it fires, push its flag and add its points. */
  function Fire(t: RuleTrace, fires: bool, flag: RiskFlag, points: int): RuleTrace {
    if fires then RuleTrace(t.flags + [flag], t.score + points) else t
  }

  /** The flag a rule contributes: itself when it fires, nothing otherwise. */
  function Raised(fires: bool, flag: RiskFlag): seq<RiskFlag> {
    if fires then [flag] else []
  }

  /** Firing a rule appends what it raises and adds its weight when it fires. */
  lemma FireStep(t: RuleTrace, fires: bool, flag: RiskFlag)
    requires t.score == SumWeights(t.flags)
    ensures Fire(t, fires, flag, Weight(flag)).flags == t.flags + Raised(fires, flag)
    ensures Fire(t, fires, flag, Weight(flag)).score == SumWeights(t.flags + Raised(fires, flag))
  {
    if fires {
      SumWeightsAppend(t.flags, [flag]);
    } else {
      assert t.flags + [] == t.flags;
    }
  }

  /** The raised flags of the four rules, in the order they are checked. */
  function RaisedAll(travel: bool, velocity: bool, device: bool, value: bool): seq<RiskFlag> {
    Raised(travel, ImpossibleTravel) + Raised(velocity, VelocitySpike)
    + Raised(device, NewDevice) + Raised(value, HighValue)
  }

  /** Raised flags come in rule order, hence without repetition. */
  lemma RaisedAllOrdered(travel: bool, velocity: bool, device: bool, value: bool)
    ensures RankOrdered(RaisedAll(travel, velocity, device, value))
    ensures Distinct(RaisedAll(travel, velocity, device, value))
  {
  }

  /** A flag is raised exactly when its rule fires. */
  lemma RaisedAllMembers(travel: bool, velocity: bool, device: bool, value: bool)
    ensures ImpossibleTravel in RaisedAll(travel, velocity, device, value) <==> travel
    ensures VelocitySpike in RaisedAll(travel, velocity, device, value) <==> velocity
    ensures NewDevice in RaisedAll(travel, velocity, device, value) <==> device
    ensures HighValue in RaisedAll(travel, velocity, device, value) <==> value
    ensures RiskyGeo !in RaisedAll(travel, velocity, device, value)
    ensures PatternMismatch !in RaisedAll(travel, velocity, device, value)
  {
  }

  /** The rule score of the raised flags is at most the four weights together. */
  lemma RaisedAllBounded(travel: bool, velocity: bool, device: bool, value: bool)
    ensures 0 <= SumWeights(RaisedAll(travel, velocity, device, value)) <= 120
  {
    var a, b := Raised(travel, ImpossibleTravel), Raised(velocity, VelocitySpike);
    var c, d := Raised(device, NewDevice), Raised(value, HighValue);
    SumWeightsAppend(a, b);
    SumWeightsAppend(a + b, c);
    SumWeightsAppend(a + b + c, d);
  }

  /** The four rule checks of `analyze` in source order, each pushing its flag and adding its points. */
  function Checks(travel: bool, velocity: bool, device: bool, value: bool): RuleTrace {
    var t1 := Fire(RuleTrace([], 0), travel, ImpossibleTravel, 45);
    var t2 := Fire(t1, velocity, VelocitySpike, 25);
    var t3 := Fire(t2, device, NewDevice, 20);
    Fire(t3, value, HighValue, 30)
  }

  /** The checks raise the fired flags in order and score the sum of their weights. */
  lemma ChecksAccumulate(travel: bool, velocity: bool, device: bool, value: bool)
    ensures Checks(travel, velocity, device, value).flags == RaisedAll(travel, velocity, device, value)
    ensures Checks(travel, velocity, device, value).score == SumWeights(RaisedAll(travel, velocity, device, value))
  {
    var t0 := RuleTrace([], 0);
    var t1 := Fire(t0, travel, ImpossibleTravel, 45);
    FireStep(t0, travel, ImpossibleTravel);
    var t2 := Fire(t1, velocity, VelocitySpike, 25);
    FireStep(t1, velocity, VelocitySpike);
    var t3 := Fire(t2, device, NewDevice, 20);
    FireStep(t2, device, NewDevice);
    FireStep(t3, value, HighValue);
    assert t1.flags == Raised(travel, ImpossibleTravel);
  }

  /**
   The four rules in source order, given whether each fires. A flag is
   raised exactly when its rule fires; flags come in rule order without
   repetition, and the score is the sum of the weights of the raised flags.
   */
  function RunRules(travel: bool, velocity: bool, device: bool, value: bool): (r: RuleTrace)
    ensures ImpossibleTravel in r.flags <==> travel
    ensures VelocitySpike in r.flags <==> velocity
    ensures NewDevice in r.flags <==> device
    ensures HighValue in r.flags <==> value
    ensures RiskyGeo !in r.flags && PatternMismatch !in r.flags
    ensures RankOrdered(r.flags)
    ensures Distinct(r.flags)
    ensures r.score == SumWeights(r.flags)
    ensures 0 <= r.score <= 120
  {
    var r := Checks(travel, velocity, device, value);
    ChecksAccumulate(travel, velocity, device, value);
    RaisedAllMembers(travel, velocity, device, value);
    RaisedAllOrdered(travel, velocity, device, value);
    RaisedAllBounded(travel, velocity, device, value);
    r
  }

  /**
   The rules applied to a transaction and the baseline of its user: each
   flag is raised exactly when its condition holds, in rule order, and the
   rule score is the sum of the raised flags' weights.
   */
  function ApplyRules(h: UserHistory, tx: Transaction, geo: Geo): (r: RuleTrace)
    ensures ImpossibleTravel in r.flags <==> TravelImpossible(h, tx, geo)
    ensures VelocitySpike in r.flags <==> VelocitySpiking(h)
    ensures NewDevice in r.flags <==> DeviceUnknown(h, tx)
    ensures HighValue in r.flags <==> ValueHigh(h, tx)
    ensures RiskyGeo !in r.flags && PatternMismatch !in r.flags
    ensures RankOrdered(r.flags) && Distinct(r.flags)
    ensures r.score == SumWeights(r.flags)
    ensures 0 <= r.score <= 120
  {
    RunRules(TravelImpossible(h, tx, geo), VelocitySpiking(h), DeviceUnknown(h, tx), ValueHigh(h, tx))
  }

  // ---------------------------------------------------------------- model

  /** The deterministic part of `simulateMLInference`: a base of 30 plus the merchant, city and amount bonuses. */
  function MlBase(tx: Transaction): real {
    30.0
    + (if Contains(Lower(tx.merchant), "crypto") then 35.0 else 0.0)
    + (if tx.location.city in HighRiskCities then 15.0 else 0.0)
    + (if tx.amount > 1000.0 then 10.0 else 0.0)
  }

  /**
   `simulateMLInference` with the jitter `25 * jitterDraw`: the base score
   plus jitter where that stays within 100, and 100 above it; a crypto
   merchant, a high-risk city or an amount over 1000 never lowers it.
   */
  function SimulateMlInference(tx: Transaction, jitterDraw: real): (r: real)
    ensures MlBase(tx) + 25.0 * jitterDraw <= 100.0 ==> r == MlBase(tx) + 25.0 * jitterDraw
    ensures 100.0 < MlBase(tx) + 25.0 * jitterDraw ==> r == 100.0
    ensures r <= 100.0
    ensures 0.0 <= jitterDraw ==> 30.0 <= r
    ensures 0.0 <= jitterDraw ==> MinReal(MlBase(tx), 100.0) <= r
    ensures r <= MlBase(tx) + 25.0 * jitterDraw
    ensures 0.0 <= jitterDraw && Contains(Lower(tx.merchant), "crypto") ==> r >= 65.0
  {
    MinReal(MlBase(tx) + jitterDraw * 25.0, 100.0)
  }

  // ---------------------------------------------------------------- decision

  /**
   The decision thresholds: BLOCK from 85 on, MANUAL_REVIEW from 60 up to
   85, APPROVE below 60. Exactly one of the three holds for every score.
   */
  function Decide(finalScore: real): (d: Decision)
    ensures d == Block <==> finalScore >= FraudThresholdBlock
    ensures d == ManualReview <==> FraudThresholdReview <= finalScore < FraudThresholdBlock
    ensures d == Approve <==> finalScore < FraudThresholdReview
  {
    if finalScore >= FraudThresholdBlock then Block
    else if finalScore >= FraudThresholdReview then ManualReview
    else Approve
  }

  /**
   The explanation attached to a review, `AMBIGUITY_SIGNALS[floor(draw * 6)]`:
   a draw in [k / 6, (k + 1) / 6) picks the k-th signal; a draw outside
   [0, 1) indexes past the catalogue and picks nothing.
   */
  function PickSignal(signalDraw: real): (r: Option<string>)
    ensures r.Some? <==> 0.0 <= signalDraw < 1.0
    ensures forall k :: 0 <= k < |AmbiguitySignals| && k as real <= signalDraw * 6.0 < k as real + 1.0 ==>
      r == Some(AmbiguitySignals[k])
    ensures 0.0 <= signalDraw < 1.0 ==> r.Some? && r.value in AmbiguitySignals
  {
    var i := (signalDraw * |AmbiguitySignals| as real).Floor;
    if 0 <= i < |AmbiguitySignals| then Some(AmbiguitySignals[i]) else None
  }

  /**
   The strategy blend: the rule score alone on a time-out, otherwise the
   weighted sum of rule and model scores. With non-negative weights and
   scores the blend is non-negative.
   */
  function Blend(ruleScore: real, mlScore: real, isFallback: bool, strategy: Strategy): (f: real)
    ensures isFallback ==> f == ruleScore
    ensures !isFallback ==> f == ruleScore * strategy.ruleWeight + mlScore * strategy.mlWeight
    ensures 0.0 <= ruleScore && 0.0 <= mlScore && 0.0 <= strategy.ruleWeight && 0.0 <= strategy.mlWeight ==>
      0.0 <= f
  {
    if isFallback then ruleScore
    else
      var f := ruleScore * strategy.ruleWeight + mlScore * strategy.mlWeight;
      assert 0.0 <= ruleScore && 0.0 <= mlScore && 0.0 <= strategy.ruleWeight && 0.0 <= strategy.mlWeight ==>
        0.0 <= f
      by {
        if 0.0 <= ruleScore && 0.0 <= mlScore && 0.0 <= strategy.ruleWeight && 0.0 <= strategy.mlWeight {
          assert 0.0 <= ruleScore * strategy.ruleWeight;
          assert 0.0 <= mlScore * strategy.mlWeight;
        }
      }
      f
  }

  /** The reported score: the final score rounded to an integer and capped at 100. */
  function CapScore(finalScore: real): (r: int)
    ensures r <= 100
    ensures 0.0 <= finalScore ==> 0 <= r
    ensures finalScore < 99.5 ==> r == Round(finalScore)
    ensures 99.5 <= finalScore ==> r == 100
  {
    MinInt(Round(finalScore), 100)
  }

  /** The ambiguity signal attached to a verdict: only a manual review carries one. */
  function Signal(decision: Decision, signalDraw: real): (r: Option<string>)
    ensures r.Some? ==> decision == ManualReview
    ensures decision == ManualReview ==> r == PickSignal(signalDraw)
    ensures decision == ManualReview && 0.0 <= signalDraw < 1.0 ==> r.Some? && r.value in AmbiguitySignals
  {
    if decision == ManualReview then PickSignal(signalDraw) else None
  }

  /** The engine's intermediate results, before rounding. */
  datatype Scores = Scores(ruleScore: int, mlScore: real, isFallback: bool, finalScore: real, decision: Decision)

  /**
   Model score with fallback, blend and thresholds, given the rule score. On
   a time-out the rule score stands in for the model score and is taken as
   the final score whatever the strategy's weights; otherwise the final score
   is the weighted sum of the two.
   */
  function Score(ruleScore: int, tx: Transaction, strategy: Strategy, draws: Draws): (s: Scores)
    ensures s.ruleScore == ruleScore
    ensures s.isFallback <==> draws.failCoin < FailureRate
    ensures s.isFallback ==> s.mlScore == ruleScore as real && s.finalScore == ruleScore as real
    ensures !s.isFallback ==>
      && s.finalScore == ruleScore as real * strategy.ruleWeight + s.mlScore * strategy.mlWeight
      && s.mlScore == SimulateMlInference(tx, draws.jitterDraw)
      && s.mlScore <= 100.0
      && (0.0 <= draws.jitterDraw ==> 30.0 <= s.mlScore)
    ensures s.decision == Block <==> s.finalScore >= FraudThresholdBlock
    ensures s.decision == ManualReview <==> FraudThresholdReview <= s.finalScore < FraudThresholdBlock
    ensures s.decision == Approve <==> s.finalScore < FraudThresholdReview
    ensures 0 <= ruleScore && 0.0 <= strategy.ruleWeight && 0.0 <= strategy.mlWeight && 0.0 <= draws.jitterDraw ==>
      0.0 <= s.finalScore
  {
    var isFallback := draws.failCoin < FailureRate;
    var mlScore := if isFallback then ruleScore as real else SimulateMlInference(tx, draws.jitterDraw);
    var finalScore := Blend(ruleScore as real, mlScore, isFallback, strategy);
    Scores(ruleScore, mlScore, isFallback, finalScore, Decide(finalScore))
  }

  /** The verdict handed back together with the intermediate results behind it. */
  datatype Assessment = Assessment(analysis: RiskAnalysis, scores: Scores)

  /**
   The verdict of `analyze` against the baseline `h`: the flags of the
   rules, the rounded rule and model scores, the final score rounded and
   capped at 100, and an ambiguity signal on manual reviews only.
   */
  function Assess(h: UserHistory, tx: Transaction, strategy: Strategy, draws: Draws,
                  elapsedMs: real, now: int, geo: Geo): (out: Assessment)
    ensures out.analysis.flags == ApplyRules(h, tx, geo).flags
    ensures out.scores == Score(ApplyRules(h, tx, geo).score, tx, strategy, draws)
    ensures out.analysis.transactionId == tx.id
    ensures out.analysis.strategyName == strategy.name
    ensures out.analysis.processingTimeMs == elapsedMs
    ensures out.analysis.timestamp == now
    ensures out.analysis.decision == out.scores.decision
    ensures out.analysis.isFallback == out.scores.isFallback
    ensures out.analysis.ruleOutput == out.scores.ruleScore
    ensures out.analysis.mlOutput == Round(out.scores.mlScore)
    ensures out.scores.isFallback ==> out.analysis.mlOutput == out.analysis.ruleOutput
    ensures out.analysis.score == CapScore(out.scores.finalScore)
    ensures out.analysis.score <= 100
    ensures 0.0 <= strategy.ruleWeight && 0.0 <= strategy.mlWeight && 0.0 <= draws.jitterDraw ==>
      0 <= out.analysis.score
    ensures out.analysis.ambiguitySignal == Signal(out.scores.decision, draws.signalDraw)
    ensures out.analysis.ambiguitySignal.Some? ==> out.analysis.decision == ManualReview
    ensures out.analysis.decision == ManualReview && draws.Valid() ==>
      out.analysis.ambiguitySignal.Some? && out.analysis.ambiguitySignal.value in AmbiguitySignals
  {
    var rules := ApplyRules(h, tx, geo);
    var s := Score(rules.score, tx, strategy, draws);
    RoundWhole(s.ruleScore);
    Assessment(
      RiskAnalysis(
        tx.id,
        CapScore(s.finalScore),
        s.decision,
        rules.flags,
        Round(s.ruleScore as real),
        Round(s.mlScore),
        elapsedMs,
        s.isFallback,
        now,
        strategy.name,
        Signal(s.decision, draws.signalDraw)),
      s)
  }

  /** The verdict handed back, the cache after the write, and the intermediate results. */
  datatype Outcome = Outcome(analysis: RiskAnalysis, store: Store, scores: Scores)

  /**
   `analyze`: assesses `tx` under `strategy` against the user's baseline (or
   the default one for an unknown user) and writes back that user's entry
   and no other, keeping the cache well formed.
   */
  function Analyze(store: Store, tx: Transaction, strategy: Strategy, draws: Draws,
                   elapsedMs: real, now: int, geo: Geo): (out: Outcome)
    ensures var a := Assess(Lookup(store, tx.userId), tx, strategy, draws, elapsedMs, now, geo);
      out.analysis == a.analysis && out.scores == a.scores
    ensures out.store == Record(store, tx, Lookup(store, tx.userId))
    ensures WellFormed(store) ==> WellFormed(out.store)
  {
    var h := Lookup(store, tx.userId);
    var a := Assess(h, tx, strategy, draws, elapsedMs, now, geo);
    RecordPreservesWellFormed(store, tx);
    Outcome(a.analysis, Record(store, tx, h), a.scores)
  }
}

=== FILE: engine_properties.dfy ===
/**
 Properties relating several calls of the engine: what a time-out makes
 irrelevant, what a rules-only strategy makes irrelevant, what one call
 leaves for the next, and which flags particular transactions raise.
 */
module EngineProperties {
  import opened Types
  import opened History
  import opened Engine

  /**
   On a model time-out the strategy does not matter: two strategies give
   the same score and decision, and the decision follows the rule score
   alone.
   */
  lemma FallbackIgnoresStrategy(store: Store, tx: Transaction, s1: Strategy, s2: Strategy, draws: Draws,
                                elapsedMs: real, now: int, geo: Geo)
    requires draws.failCoin < FailureRate
    ensures Analyze(store, tx, s1, draws, elapsedMs, now, geo).analysis.isFallback
    ensures Analyze(store, tx, s1, draws, elapsedMs, now, geo).analysis.score
         == Analyze(store, tx, s2, draws, elapsedMs, now, geo).analysis.score
    ensures Analyze(store, tx, s1, draws, elapsedMs, now, geo).analysis.decision
         == Analyze(store, tx, s2, draws, elapsedMs, now, geo).analysis.decision
    ensures var a := Analyze(store, tx, s1, draws, elapsedMs, now, geo).analysis;
      && a.score == MinInt(a.ruleOutput, 100)
      && a.mlOutput == a.ruleOutput
      && (a.decision == Block <==> a.ruleOutput >= 85)
      && (a.decision == ManualReview <==> 60 <= a.ruleOutput < 85)
  {
    var a := Analyze(store, tx, s1, draws, elapsedMs, now, geo);
    assert Round(a.scores.ruleScore as real) == a.scores.ruleScore;
  }

  /** The strategy that trusts the rules only. */
  predicate RulesOnly(s: Strategy) {
    s.ruleWeight == 1.0 && s.mlWeight == 0.0
  }

  /**
   With rule weight 1 and model weight 0 and no time-out, the final score is
   the rule score, so the model's jitter cannot change score or decision.
   */
  lemma RulesOnlyIgnoresModel(store: Store, tx: Transaction, s: Strategy, d1: Draws, d2: Draws,
                              elapsedMs: real, now: int, geo: Geo)
    requires RulesOnly(s)
    requires d1.failCoin >= FailureRate && d2.failCoin >= FailureRate
    ensures Analyze(store, tx, s, d1, elapsedMs, now, geo).scores.finalScore
         == Analyze(store, tx, s, d1, elapsedMs, now, geo).scores.ruleScore as real
    ensures Analyze(store, tx, s, d1, elapsedMs, now, geo).analysis.score
         == Analyze(store, tx, s, d2, elapsedMs, now, geo).analysis.score
    ensures Analyze(store, tx, s, d1, elapsedMs, now, geo).analysis.decision
         == Analyze(store, tx, s, d2, elapsedMs, now, geo).analysis.decision
  {
    var rule := ApplyRules(Lookup(store, tx.userId), tx, geo).score;
    var s1, s2 := Score(rule, tx, s, d1), Score(rule, tx, s, d2);
    assert s1.finalScore == rule as real * 1.0 + s1.mlScore * 0.0;
    assert s2.finalScore == rule as real * 1.0 + s2.mlScore * 0.0;
    assert s1.finalScore == s2.finalScore;
  }

  /**
   A device seen on one transaction is known on the user's next one: the
   second transaction never raises NEW_DEVICE when the cache is well formed.
   */
  lemma DeviceRememberedForNextTransaction(store: Store, tx1: Transaction, tx2: Transaction,
                                           s1: Strategy, s2: Strategy, d1: Draws, d2: Draws,
                                           e1: real, e2: real, now1: int, now2: int, geo: Geo)
    requires WellFormed(store)
    requires tx2.userId == tx1.userId && tx2.device.id == tx1.device.id
    ensures var after := Analyze(store, tx1, s1, d1, e1, now1, geo).store;
      NewDevice !in Analyze(after, tx2, s2, d2, e2, now2, geo).analysis.flags
  {
    var h := Lookup(store, tx1.userId);
    assert DevicesOk(h.lastDeviceIds);
  }

  /** Each transaction of a user adds exactly one to that user's activity count. */
  lemma CountAdvances(store: Store, tx: Transaction, s: Strategy, d: Draws, e: real, now: int, geo: Geo)
    ensures Lookup(Analyze(store, tx, s, d, e, now, geo).store, tx.userId).recentTransactionCount
         == Lookup(store, tx.userId).recentTransactionCount + 1
  {
  }

  /**
   A user the cache has never seen has no known devices, so the first
   transaction raises NEW_DEVICE; an amount of 30 against the default
   average of 50 does not raise HIGH_VALUE.
   */
  lemma UnknownUserFirstTransaction(store: Store, tx: Transaction, s: Strategy, d: Draws, e: real, now: int, geo: Geo)
    requires tx.userId !in store
    requires tx.amount == 30.0
    ensures NewDevice in Analyze(store, tx, s, d, e, now, geo).analysis.flags
    ensures HighValue !in Analyze(store, tx, s, d, e, now, geo).analysis.flags
    ensures VelocitySpike !in Analyze(store, tx, s, d, e, now, geo).analysis.flags
  {
  }

  /**
   Seen in New York, then one second later in Tokyo (10 850 km away): the
   implied speed far exceeds 1000 km/h, so IMPOSSIBLE_TRAVEL is raised and
   the rule score includes its 45 points.
   */
  lemma NewYorkToTokyoInOneSecond(store: Store, tx: Transaction, s: Strategy, d: Draws, e: real, now: int, geo: Geo)
    requires tx.userId in store
    requires store[tx.userId].lastLocation == LastSeen(40.7128, -74.0060, tx.timestamp - 1000)
    requires tx.location.lat == 35.6895 && tx.location.lng == 139.6917
    requires geo(40.7128, -74.0060, 35.6895, 139.6917) == 10850.0
    ensures ImpossibleTravel in Analyze(store, tx, s, d, e, now, geo).analysis.flags
    ensures Analyze(store, tx, s, d, e, now, geo).analysis.ruleOutput >= 45
  {
    var h := store[tx.userId];
    var hours := (tx.timestamp - h.lastLocation.timestamp) as real / MillisPerHour;
    assert hours == 1000.0 / 3600000.0;
    assert MaxReal(hours, 0.01) == 0.01;
    assert TravelImpossible(h, tx, geo);
    var flags := Analyze(store, tx, s, d, e, now, geo).analysis.flags;
    RuleScoreCountsFlag(flags, ImpossibleTravel);
  }

  /** A user with six earlier transactions raises VELOCITY_SPIKE. */
  lemma SixPriorTransactionsSpike(store: Store, tx: Transaction, s: Strategy, d: Draws, e: real, now: int, geo: Geo)
    requires tx.userId in store && store[tx.userId].recentTransactionCount == 6
    ensures VelocitySpike in Analyze(store, tx, s, d, e, now, geo).analysis.flags
  {
  }

  /** A raised flag contributes its full weight to the sum of any flag list it belongs to. */
  lemma {:induction false} RuleScoreCountsFlag(flags: seq<RiskFlag>, f: RiskFlag)
    requires f in flags
    ensures SumWeights(flags) >= Weight(f)
    decreases |flags|
  {
    if flags[0] != f {
      RuleScoreCountsFlag(flags[1..], f);
    }
    NonNegativeWeights(flags[1..]);
  }

  lemma {:induction false} NonNegativeWeights(flags: seq<RiskFlag>)
    ensures SumWeights(flags) >= 0
    decreases |flags|
  {
    if flags != [] {
      NonNegativeWeights(flags[1..]);
    }
  }
}

=== FILE: history.dfy ===
/**
 The engine's per-user history cache (`userCache` in the engine): a map
 from user id to that user's behavioural baseline, its default for unseen
 users, its seeding, and the single write the engine performs per
 transaction.
 */
module History {
  import opened Types
  import opened Seqs
  import opened Text

  type Store = map<string, UserHistory>

  /** How many distinct device ids a history remembers. */
  const MaxDevices: nat := 5

  /** The baseline of a user the cache has never seen. */
  function DefaultHistory(userId: string): UserHistory {
    UserHistory(userId, LastSeen(0.0, 0.0, 0), [], 50.0, 0)
  }

  /**
   `userCache.get(id) || createDefaultHistory(id)`: the stored baseline, or
   a fresh default for an unknown user. Reading never stores anything.
   */
  function Lookup(store: Store, userId: string): (h: UserHistory)
    ensures userId in store ==> h == store[userId]
    ensures userId !in store ==>
      && h.userId == userId
      && h.lastLocation == LastSeen(0.0, 0.0, 0)
      && h.lastDeviceIds == []
      && h.avgTransactionValue == 50.0
      && h.recentTransactionCount == 0
  {
    if userId in store then store[userId] else DefaultHistory(userId)
  }

  /** A history whose device list is a window of at most five distinct ids. */
  predicate DevicesOk(devices: seq<string>) {
    Distinct(devices) && |devices| <= MaxDevices
  }

  /** Every entry is filed under its own user id and keeps a proper device window. */
  predicate WellFormed(store: Store) {
    forall k :: k in store ==> store[k].userId == k && DevicesOk(store[k].lastDeviceIds)
  }

  /**
   `Array.from(new Set([...devices, id])).slice(-5)`: records a device in the
   insertion-ordered window of the last five distinct devices.
   */
  function RememberDevice(devices: seq<string>, id: string): (r: seq<string>)
    ensures DevicesOk(r)
    ensures forall i :: 0 <= i < |r| ==> r[i] in devices || r[i] == id
    ensures id !in devices ==> |r| > 0 && r[|r| - 1] == id
    ensures DevicesOk(devices) && id in devices ==> r == devices
    ensures Distinct(devices) && id !in devices ==> r == LastN(devices + [id], MaxDevices)
    ensures Distinct(devices) && id !in devices && |devices| < MaxDevices ==> r == devices + [id]
  {
    WindowShape(devices, id);
    WindowCases(devices, id);
    LastN(Dedup(devices + [id]), MaxDevices)
  }

  /** The window is a proper device window of known devices, ending with the new one when it is new. */
  lemma WindowShape(devices: seq<string>, id: string)
    ensures var r := LastN(Dedup(devices + [id]), MaxDevices);
      && DevicesOk(r)
      && (forall i :: 0 <= i < |r| ==> r[i] in devices || r[i] == id)
      && (id !in devices ==> |r| > 0 && r[|r| - 1] == id)
  {
    var d := Dedup(devices + [id]);
    var r := LastN(d, MaxDevices);
    var k := |d| - |r|;
    DedupSnoc(devices, id);
    assert r == d[k..];
    forall i, j | 0 <= i < j < |r|
      ensures r[i] != r[j]
    {
      assert r[i] == d[k + i] && r[j] == d[k + j];
    }
    forall i | 0 <= i < |r|
      ensures r[i] in devices || r[i] == id
    {
      assert r[i] == d[k + i];
      assert d[k + i] in devices + [id];
    }
  }

  /** A known device leaves a proper window alone; a new one joins a window without repeats at its end. */
  lemma WindowCases(devices: seq<string>, id: string)
    ensures DevicesOk(devices) && id in devices ==> LastN(Dedup(devices + [id]), MaxDevices) == devices
    ensures Distinct(devices) && id !in devices ==>
      LastN(Dedup(devices + [id]), MaxDevices) == LastN(devices + [id], MaxDevices)
    ensures Distinct(devices) && id !in devices && |devices| < MaxDevices ==>
      LastN(Dedup(devices + [id]), MaxDevices) == devices + [id]
  {
    if Distinct(devices) {
      DedupSnoc(devices, id);
      DedupDistinct(devices);
      var d := Dedup(devices + [id]);
      if id in devices {
        assert d == devices;
      } else {
        assert d == devices + [id];
      }
    }
  }

  /** The entry written back after scoring `tx` against the prior baseline `h`. */
  function Advance(h: UserHistory, tx: Transaction): UserHistory {
    h.(lastLocation := LastSeen(tx.location.lat, tx.location.lng, tx.timestamp),
       recentTransactionCount := h.recentTransactionCount + 1,
       lastDeviceIds := RememberDevice(h.lastDeviceIds, tx.device.id))
  }

  /**
   `updateUserCache`: overwrites the entry of `tx.userId` only. The new entry
   counts one more transaction, moves the last location to the transaction's
   coordinates and time, remembers the device, and carries the user id and
   the average value over from the prior baseline `h`.
   */
  function Record(store: Store, tx: Transaction, h: UserHistory): (r: Store)
    ensures r.Keys == store.Keys + {tx.userId}
    ensures forall k :: k in store && k != tx.userId ==> r[k] == store[k]
    ensures r[tx.userId].recentTransactionCount == h.recentTransactionCount + 1
    ensures r[tx.userId].lastLocation == LastSeen(tx.location.lat, tx.location.lng, tx.timestamp)
    ensures r[tx.userId].avgTransactionValue == h.avgTransactionValue
    ensures r[tx.userId].userId == h.userId
    ensures DevicesOk(r[tx.userId].lastDeviceIds)
    ensures tx.device.id !in h.lastDeviceIds ==> tx.device.id in r[tx.userId].lastDeviceIds
    ensures DevicesOk(h.lastDeviceIds) ==> tx.device.id in r[tx.userId].lastDeviceIds
    ensures DevicesOk(h.lastDeviceIds) && tx.device.id in h.lastDeviceIds ==>
      r[tx.userId].lastDeviceIds == h.lastDeviceIds
  {
    store[tx.userId := Advance(h, tx)]
  }

  /** The updated entry's device list is the prior list with the transaction's device remembered. */
  lemma RecordRemembersDevice(store: Store, tx: Transaction, h: UserHistory)
    ensures Record(store, tx, h)[tx.userId].lastDeviceIds == RememberDevice(h.lastDeviceIds, tx.device.id)
  {
    assert Record(store, tx, h)[tx.userId] == Advance(h, tx);
  }

  /** Looking a user up and writing the result back keeps the cache well formed. */
  lemma RecordPreservesWellFormed(store: Store, tx: Transaction)
    ensures WellFormed(store) ==> WellFormed(Record(store, tx, Lookup(store, tx.userId)))
  {
    if WellFormed(store) {
      var h := Lookup(store, tx.userId);
      assert h.userId == tx.userId;
      var r := Record(store, tx, h);
      assert r[tx.userId].userId == tx.userId && DevicesOk(r[tx.userId].lastDeviceIds);
      forall k | k in r && k != tx.userId
        ensures r[k].userId == k && DevicesOk(r[k].lastDeviceIds)
      {
        assert r[k] == store[k];
      }
    }
  }

  /** Replays device sightings one after the other into an initially empty window. */
  function Replay(ids: seq<string>): seq<string>
    decreases |ids|
  {
    if ids == [] then [] else RememberDevice(Replay(ids[..|ids| - 1]), ids[|ids| - 1])
  }

  /**
   After a run of pairwise distinct devices, the window holds exactly the
   most recent five of them in the order they were seen.
   */
  lemma {:induction false} ReplayDistinct(ids: seq<string>)
    requires Distinct(ids)
    ensures Replay(ids) == LastN(ids, MaxDevices)
    decreases |ids|
  {
    if ids != [] {
      var p := ids[..|ids| - 1];
      var x := ids[|ids| - 1];
      assert ids == p + [x];
      assert Distinct(p) && x !in p by {
        forall i | 0 <= i < |p|
          ensures p[i] != x
        {
          assert ids[i] != ids[|ids| - 1];
        }
      }
      ReplayDistinct(p);
      LastNDistinct(p, x, MaxDevices);
      LastNSnoc(p, x, MaxDevices);
    }
  }

  function UserKey(i: nat): string {
    "user_" + NatToString(i)
  }

  /** `user_${i}` names one user only. */
  lemma UserKeyInjective(i: nat, j: nat)
    ensures UserKey(i) == UserKey(j) ==> i == j
  {
    if UserKey(i) == UserKey(j) {
      assert UserKey(i)[5..] == NatToString(i) && UserKey(j)[5..] == NatToString(j);
      NatToStringInjective(i, j);
    }
  }

  function DeviceKey(i: nat): string {
    "dev_" + NatToString(i)
  }

  /** The seeded baseline of user `i`: seen an hour before `now` in New York on device `dev_i`. */
  function SeedHistory(i: nat, now: int, draw: real): UserHistory {
    UserHistory(UserKey(i), LastSeen(40.7128, -74.0060, now - 3600000), [DeviceKey(i)], draw * 200.0 + 20.0, 0)
  }

  /** `h` is the seeded baseline of one of the users `user_1` .. `user_n`, filed under its key `k`. */
  ghost predicate SeededAs(k: string, h: UserHistory, n: nat, now: int, draws: seq<real>) {
    exists i :: 1 <= i <= n && i <= |draws| && k == UserKey(i) && h == SeedHistory(i, now, draws[i - 1])
  }

  /**
   Users `user_1` .. `user_n`, where `draws[i - 1]` is the `Math.random()`
   value drawn for user `i`'s average transaction value: each entry is the
   seeded baseline of one of those users, filed under that user's key.
   */
  function Seed(n: nat, now: int, draws: seq<real>): (r: Store)
    requires n <= |draws|
    ensures forall i :: 1 <= i <= n ==> UserKey(i) in r
    ensures forall k :: k in r ==> SeededAs(k, r[k], n, now, draws)
    decreases n
  {
    if n == 0 then map[] else
      var prev := Seed(n - 1, now, draws);
      var r := prev[UserKey(n) := SeedHistory(n, now, draws[n - 1])];
      assert forall k :: k in r ==> SeededAs(k, r[k], n, now, draws) by {
        forall k | k in r
          ensures SeededAs(k, r[k], n, now, draws)
        {
          if k == UserKey(n) {
            assert r[k] == SeedHistory(n, now, draws[n - 1]);
          } else {
            assert SeededAs(k, prev[k], n - 1, now, draws);
            var i :| 1 <= i <= n - 1 && i <= |draws| && k == UserKey(i) && prev[k] == SeedHistory(i, now, draws[i - 1]);
            assert r[k] == prev[k];
          }
        }
      }
      r
  }

  /** Looking up `user_i` in the seeded cache gives user `i`'s seeded baseline. */
  lemma SeedLookup(n: nat, now: int, draws: seq<real>, i: nat)
    requires n <= |draws| && 1 <= i <= n
    ensures Seed(n, now, draws)[UserKey(i)] == SeedHistory(i, now, draws[i - 1])
  {
    var r := Seed(n, now, draws);
    assert UserKey(i) in r;
    SeededAsUnique(UserKey(i), r[UserKey(i)], n, now, draws, i);
  }

  /** An entry seeded under `user_i` is user `i`'s baseline and no other user's. */
  lemma SeededAsUnique(k: string, h: UserHistory, n: nat, now: int, draws: seq<real>, i: nat)
    requires SeededAs(k, h, n, now, draws) && k == UserKey(i) && 1 <= i <= |draws|
    ensures h == SeedHistory(i, now, draws[i - 1])
  {
    var j :| 1 <= j <= n && j <= |draws| && k == UserKey(j) && h == SeedHistory(j, now, draws[j - 1]);
    UserKeyInjective(i, j);
  }

  /**
   The seeded cache is well formed; every seeded user has no transactions
   yet, was last seen in New York an hour before `now`, and knows one
   device; with draws in [0, 1) every average lies in [20, 220).
   */
  lemma SeedShape(n: nat, now: int, draws: seq<real>)
    requires n <= |draws|
    ensures var r := Seed(n, now, draws);
      && WellFormed(r)
      && (forall k :: k in r ==>
            && r[k].recentTransactionCount == 0
            && r[k].lastLocation == LastSeen(40.7128, -74.0060, now - 3600000)
            && |r[k].lastDeviceIds| == 1)
      && ((forall j :: 0 <= j < |draws| ==> 0.0 <= draws[j] < 1.0) ==>
            forall k :: k in r ==> 20.0 <= r[k].avgTransactionValue < 220.0)
  {
    var r := Seed(n, now, draws);
    forall k | k in r
      ensures r[k].userId == k && DevicesOk(r[k].lastDeviceIds)
      ensures r[k].recentTransactionCount == 0
      ensures r[k].lastLocation == LastSeen(40.7128, -74.0060, now - 3600000)
      ensures |r[k].lastDeviceIds| == 1
      ensures (forall j :: 0 <= j < |draws| ==> 0.0 <= draws[j] < 1.0) ==> 20.0 <= r[k].avgTransactionValue < 220.0
    {
      assert SeededAs(k, r[k], n, now, draws);
      var i :| 1 <= i <= n && i <= |draws| && k == UserKey(i) && r[k] == SeedHistory(i, now, draws[i - 1]);
    }
  }

  /** `seedUserCache`: the hundred seeded users the cache starts with. */
  function SeedUserCache(now: int, draws: seq<real>): (r: Store)
    requires |draws| == 100
    ensures forall i :: 1 <= i <= 100 ==> UserKey(i) in r
    ensures WellFormed(r)
  {
    SeedShape(100, now, draws);
    Seed(100, now, draws)
  }
}

=== FILE: logs.dfy ===
/**
 The observability log view: the severity / free-text filter over log
 entries (`filteredLogs`) and the style chosen for a severity
 (`getSeverityStyles`).
 */
module Logs {
  import opened Types
  import opened Seqs
  import opened Text

  /** The severity selector: everything, or one severity. */
  datatype SeverityFilter = All | Only(severity: LogSeverity)

  /**
   A log is kept when its severity passes the selector and the lower-cased
   search text occurs in its lower-cased message or id.
   */
  predicate Matches(log: LogEntry, filter: SeverityFilter, search: string) {
    && (filter.All? || log.severity == filter.severity)
    && (Contains(Lower(log.message), Lower(search)) || Contains(Lower(log.id), Lower(search)))
  }

  /** The lower-cased search text occurs at some position of the lower-cased message or id. */
  ghost predicate Mentions(log: LogEntry, search: string) {
    || (exists k :: OccursAt(Lower(log.message), Lower(search), k))
    || (exists k :: OccursAt(Lower(log.id), Lower(search), k))
  }

  lemma MatchesMentions(log: LogEntry, filter: SeverityFilter, search: string)
    requires Matches(log, filter, search)
    ensures Mentions(log, search)
  {
    ContainsIff(Lower(log.message), Lower(search));
    ContainsIff(Lower(log.id), Lower(search));
  }

  /**
   `filteredLogs`: the matching logs in their original order. A kept log has
   the selected severity and contains the search text in its message or id;
   every matching log is kept, as often as it occurs; with no selector and no search text every
   log is kept.
   */
  function FilterLogs(logs: seq<LogEntry>, filter: SeverityFilter, search: string): (r: seq<LogEntry>)
    ensures IsSubsequence(r, logs)
    ensures forall i :: 0 <= i < |r| ==> r[i] in logs
    ensures filter.Only? ==> forall i :: 0 <= i < |r| ==> r[i].severity == filter.severity
    ensures forall i :: 0 <= i < |r| ==> Mentions(r[i], search)
    ensures forall x :: Count(r, x) == if Matches(x, filter, search) then Count(logs, x) else 0
    ensures forall i :: 0 <= i < |logs| && Matches(logs[i], filter, search) ==> logs[i] in r
    ensures filter.All? && search == "" ==> r == logs
  {
    var r := Filter(logs, (log: LogEntry) => Matches(log, filter, search));
    forall i | 0 <= i < |r|
      ensures Mentions(r[i], search)
    {
      MatchesMentions(r[i], filter, search);
    }
    assert filter.All? && search == "" ==> forall i :: 0 <= i < |logs| ==> Matches(logs[i], filter, search) by {
      forall i | 0 <= i < |logs|
        ensures Contains(Lower(logs[i].message), "")
      {
        ContainsEmpty(Lower(logs[i].message));
      }
    }
    r
  }

  /** The icons the log view puts next to an entry. */
  datatype Icon = InfoIcon | AlertCircle | XCircle | CheckCircle2

  datatype Style = Style(text: string, bg: string, icon: Icon)

  const DefaultStyle: Style := Style("text-slate-400", "bg-slate-500/10", InfoIcon)

  function SeverityName(s: LogSeverity): string {
    match s
    case Info => "INFO"
    case Warn => "WARN"
    case Error => "ERROR"
    case Critical => "CRITICAL"
  }

  /** The style of a known severity. */
  function StyleOf(s: LogSeverity): Style {
    match s
    case Info => Style("text-emerald-400", "bg-emerald-500/10", InfoIcon)
    case Warn => Style("text-amber-400", "bg-amber-500/10", AlertCircle)
    case Error => Style("text-rose-400", "bg-rose-500/10", XCircle)
    case Critical => Style("text-rose-600", "bg-rose-600/20", CheckCircle2)
  }

  /**
   `getSeverityStyles` on the severity as it arrives at run time (a string):
   each of the four severity names gets its own style, distinct from the
   others and from the default; every other string gets the default.
   */
  function SeverityStyles(name: string): (r: Style)
    ensures forall s: LogSeverity :: name == SeverityName(s) ==> r == StyleOf(s) && r != DefaultStyle
    ensures (forall s: LogSeverity :: name != SeverityName(s)) ==> r == DefaultStyle
    ensures forall s, t: LogSeverity :: s != t ==> StyleOf(s) != StyleOf(t)
  {
    if name == "INFO" then StyleOf(Info)
    else if name == "WARN" then StyleOf(Warn)
    else if name == "ERROR" then StyleOf(Error)
    else if name == "CRITICAL" then StyleOf(Critical)
    else DefaultStyle
  }
}

=== FILE: seqs.dfy ===
/**
 Generic sequence operations behind the dashboard's array methods:
 `filter`, `slice`, `Array.from(new Set(...))` and the stable `sort`.
 */
module Seqs {

  /** No element occurs twice. */
  predicate Distinct<T(==)>(s: seq<T>) {
    forall i, j :: 0 <= i < j < |s| ==> s[i] != s[j]
  }

  /** `sub` is obtained from `s` by deleting elements, keeping their order. */
  predicate IsSubsequence<T(==)>(sub: seq<T>, s: seq<T>)
    decreases |s|
  {
    || sub == []
    || (&& s != []
        && ((sub[0] == s[0] && IsSubsequence(sub[1..], s[1..])) || IsSubsequence(sub, s[1..])))
  }

  /** Number of occurrences of `x` in `s`. */
  function Count<T(==)>(s: seq<T>, x: T): nat
    decreases |s|
  {
    if s == [] then 0 else (if s[0] == x then 1 else 0) + Count(s[1..], x)
  }

  /**
   `Array.prototype.filter`: an order-preserving selection that keeps every
   occurrence of a kept element and no occurrence of any other.
   */
  function Filter<T(==,!new)>(s: seq<T>, keep: T -> bool): (r: seq<T>)
    ensures IsSubsequence(r, s)
    ensures forall x :: Count(r, x) == if keep(x) then Count(s, x) else 0
    ensures forall i :: 0 <= i < |r| ==> r[i] in s && keep(r[i])
    ensures forall i :: 0 <= i < |s| && keep(s[i]) ==> s[i] in r
    ensures |r| <= |s|
    ensures (forall i :: 0 <= i < |s| ==> keep(s[i])) ==> r == s
    decreases |s|
  {
    if s == [] then []
    else if keep(s[0]) then
      var rest := Filter(s[1..], keep);
      assert ([s[0]] + rest)[1..] == rest;
      [s[0]] + rest
    else Filter(s[1..], keep)
  }

  /** Appending one element to both sides, or to the longer one only, keeps a subsequence. */
  lemma {:induction false} SubsequenceSnoc<T>(sub: seq<T>, s: seq<T>, x: T)
    requires IsSubsequence(sub, s)
    ensures IsSubsequence(sub, s + [x])
    ensures IsSubsequence(sub + [x], s + [x])
    decreases |s|
  {
    if s == [] {
      assert sub == [];
      assert (sub + [x])[1..] == [];
    } else {
      assert (s + [x])[1..] == s[1..] + [x];
      if sub == [] {
        SubsequenceSnoc(sub, s[1..], x);
        assert sub + [x] == [x];
      } else if sub[0] == s[0] && IsSubsequence(sub[1..], s[1..]) {
        SubsequenceSnoc(sub[1..], s[1..], x);
        assert (sub + [x])[1..] == sub[1..] + [x];
      } else {
        SubsequenceSnoc(sub, s[1..], x);
      }
    }
  }

  /** `Array.prototype.slice(0, n)`: the first `n` elements, or all of them. */
  function Take<T>(s: seq<T>, n: nat): (r: seq<T>)
    ensures |r| <= n && |r| <= |s|
    ensures |r| == n || r == s
    ensures r == s[..|r|]
  {
    if |s| <= n then s else s[..n]
  }

  /** `Array.prototype.slice(-n)` for `n > 0`: the last `n` elements, or all of them. */
  function LastN<T>(s: seq<T>, n: nat): (r: seq<T>)
    ensures |r| <= n && |r| <= |s|
    ensures |r| == n || r == s
    ensures r == s[|s| - |r|..]
  {
    if |s| <= n then s else s[|s| - n..]
  }

  /**
   `Array.from(new Set(s))`: the first occurrence of every element, in the
   order in which the elements were first inserted (`DedupOrder`).
   */
  function Dedup<T(==)>(s: seq<T>): (r: seq<T>)
    ensures Distinct(r)
    ensures forall i :: 0 <= i < |r| ==> r[i] in s
    ensures forall i :: 0 <= i < |s| ==> s[i] in r
    ensures |r| <= |s|
    decreases |s|
  {
    if s == [] then []
    else
      var p, x := s[..|s| - 1], s[|s| - 1];
      assert s == p + [x];
      DedupStep(p, x, Dedup(p));
      if x in Dedup(p) then Dedup(p) else Dedup(p) + [x]
  }

  /** One more insertion keeps the insertion-ordered set free of repeats and complete. */
  lemma DedupStep<T>(p: seq<T>, x: T, d: seq<T>)
    requires Distinct(d)
    requires forall i :: 0 <= i < |d| ==> d[i] in p
    requires forall i :: 0 <= i < |p| ==> p[i] in d
    requires |d| <= |p|
    ensures var r := if x in d then d else d + [x];
      && Distinct(r)
      && (forall i :: 0 <= i < |r| ==> r[i] in p + [x])
      && (forall i :: 0 <= i < |p + [x]| ==> (p + [x])[i] in r)
      && |r| <= |p + [x]|
  {
    var s := p + [x];
    var r := if x in d then d else d + [x];
    forall i | 0 <= i < |s|
      ensures s[i] in r
    {
      if i < |p| {
        assert s[i] == p[i];
      }
    }
  }

  /**
   The insertion-ordered set is an order-preserving selection of `s` that
   lists its elements by first occurrence: of two listed elements, the
   earlier one occurs in `s` before the later one first does.
   */
  lemma {:induction false} DedupOrder<T>(s: seq<T>)
    ensures IsSubsequence(Dedup(s), s)
    ensures forall i, j :: 0 <= i < j < |Dedup(s)| ==> FirstBefore(s, Dedup(s)[i], Dedup(s)[j])
    decreases |s|
  {
    if s != [] {
      var p, x := s[..|s| - 1], s[|s| - 1];
      assert s == p + [x];
      DedupOrder(p);
      DedupSnoc(p, x);
      DedupOrderStep(p, x, Dedup(p));
    }
  }

  /** One more insertion keeps the insertion-ordered set a first-occurrence subsequence. */
  lemma DedupOrderStep<T>(p: seq<T>, x: T, d: seq<T>)
    requires forall i :: 0 <= i < |d| ==> d[i] in p
    requires x in p <==> x in d
    requires IsSubsequence(d, p)
    requires forall i, j :: 0 <= i < j < |d| ==> FirstBefore(p, d[i], d[j])
    ensures var r := if x in p then d else d + [x];
      && IsSubsequence(r, p + [x])
      && (forall i, j :: 0 <= i < j < |r| ==> FirstBefore(p + [x], r[i], r[j]))
  {
    var s := p + [x];
    SubsequenceSnoc(d, p, x);
    var r := if x in p then d else d + [x];
    forall i, j | 0 <= i < j < |r|
      ensures FirstBefore(s, r[i], r[j])
    {
      if j < |d| {
        var k :| 0 <= k < |p| && p[k] == r[i] && r[j] !in p[..k];
        assert s[k] == r[i] && s[..k] == p[..k];
      } else {
        var k :| 0 <= k < |p| && p[k] == r[i];
        assert s[k] == r[i] && s[..k] == p[..k];
      }
    }
  }

  /** `x` occurs in `s` before the first occurrence of `y`. */
  predicate FirstBefore<T(==)>(s: seq<T>, x: T, y: T) {
    exists k :: 0 <= k < |s| && s[k] == x && y !in s[..k]
  }

  /** Inserting one more element into a set grows its insertion order at the end only. */
  lemma DedupSnoc<T>(s: seq<T>, x: T)
    ensures Dedup(s + [x]) == if x in s then Dedup(s) else Dedup(s) + [x]
  {
    assert (s + [x])[..|s|] == s;
  }

  /** A sequence without repetitions is its own insertion-ordered set. */
  lemma {:induction false} DedupDistinct<T>(s: seq<T>)
    ensures Distinct(s) ==> Dedup(s) == s
    decreases |s|
  {
    if s != [] && Distinct(s) {
      var p := s[..|s| - 1];
      DedupDistinct(p);
      assert s[|s| - 1] !in p;
      assert s == p + [s[|s| - 1]];
    }
  }

  /** Keeping the last `n` before appending one more loses nothing that the last `n` after it would keep. */
  lemma LastNSnoc<T>(s: seq<T>, x: T, n: nat)
    ensures LastN(LastN(s, n) + [x], n) == LastN(s + [x], n)
  {
    var w := LastN(s, n);
    assert w + [x] == (s + [x])[|s| - |w|..];
  }

  /** A suffix of a sequence without repetitions has none either, and misses what the sequence misses. */
  lemma LastNDistinct<T>(s: seq<T>, x: T, n: nat)
    requires Distinct(s) && x !in s
    ensures Distinct(LastN(s, n)) && x !in LastN(s, n)
  {
    var w := LastN(s, n);
    var k := |s| - |w|;
    assert w == s[k..];
    forall i, j | 0 <= i < j < |w|
      ensures w[i] != w[j]
    {
      assert w[i] == s[k + i] && w[j] == s[k + j];
    }
    forall i | 0 <= i < |w|
      ensures w[i] != x
    {
      assert w[i] == s[k + i];
    }
  }

  /** In a sequence without repetitions every element occurs at most once. */
  lemma {:induction false} DistinctOnce<T>(s: seq<T>, x: T)
    requires Distinct(s)
    ensures multiset(s)[x] <= 1
    decreases |s|
  {
    if s != [] {
      assert s == [s[0]] + s[1..];
      DistinctOnce(s[1..], x);
      if s[0] == x {
        assert x !in s[1..];
      }
    }
  }

  /** A permutation of a sequence without repetitions has none either. */
  lemma DistinctPermutation<T>(a: seq<T>, b: seq<T>)
    requires Distinct(a) && multiset(a) == multiset(b)
    ensures Distinct(b)
  {
    forall i, j | 0 <= i < j < |b|
      ensures b[i] != b[j]
    {
      DistinctOnce(a, b[j]);
      assert b == b[..j] + [b[j]] + b[j + 1..];
      assert b[i] in b[..j];
      assert multiset(b)[b[j]] == multiset(b[..j])[b[j]] + 1 + multiset(b[j + 1..])[b[j]];
      assert multiset(b[..j])[b[i]] >= 1;
    }
  }

  /** Keys are non-increasing from left to right. */
  predicate SortedDesc<T>(s: seq<T>, key: T -> int) {
    forall i, j :: 0 <= i < j < |s| ==> key(s[i]) >= key(s[j])
  }

  /**
   Places `x` after every element whose key is at least `key(x)`, so that an
   element inserted later never overtakes an earlier one with the same key.
   */
  function Insert<T>(x: T, sorted: seq<T>, key: T -> int): (r: seq<T>)
    ensures |r| == |sorted| + 1
    decreases |sorted|
  {
    if sorted == [] then [x]
    else if key(sorted[0]) < key(x) then [x] + sorted
    else [sorted[0]] + Insert(x, sorted[1..], key)
  }

  /** Insertion keeps every element and adds exactly `x`. */
  lemma {:induction false} InsertPermutes<T>(x: T, sorted: seq<T>, key: T -> int)
    ensures multiset(Insert(x, sorted, key)) == multiset(sorted) + multiset{x}
    decreases |sorted|
  {
    if sorted != [] && key(sorted[0]) >= key(x) {
      InsertPermutes(x, sorted[1..], key);
      assert sorted == [sorted[0]] + sorted[1..];
    }
  }

  /** Insertion into a sorted sequence leaves it sorted. */
  lemma {:induction false} InsertSorted<T>(x: T, sorted: seq<T>, key: T -> int)
    requires SortedDesc(sorted, key)
    ensures SortedDesc(Insert(x, sorted, key), key)
    decreases |sorted|
  {
    if sorted != [] && key(sorted[0]) >= key(x) {
      var head, tail := sorted[0], sorted[1..];
      InsertSorted(x, tail, key);
      InsertPermutes(x, tail, key);
      var rest := Insert(x, tail, key);
      forall i | 0 <= i < |rest|
        ensures key(head) >= key(rest[i])
      {
        assert rest[i] in multiset(rest);
        if rest[i] != x {
          assert rest[i] in multiset(tail);
          var j :| 0 <= j < |tail| && tail[j] == rest[i];
          assert sorted[j + 1] == rest[i];
        }
      }
      assert Insert(x, sorted, key) == [head] + rest;
    }
  }

  /**
   The stable `Array.prototype.sort((a, b) => key(b) - key(a))`:
   a permutation of `s` ordered by non-increasing key.
   */
  function SortDesc<T>(s: seq<T>, key: T -> int): (r: seq<T>)
    ensures SortedDesc(r, key)
    ensures multiset(r) == multiset(s)
    ensures |r| == |s|
    decreases |s|
  {
    if s == [] then []
    else
      var init, last := s[..|s| - 1], s[|s| - 1];
      assert s == init + [last];
      InsertSorted(last, SortDesc(init, key), key);
      InsertPermutes(last, SortDesc(init, key), key);
      Insert(last, SortDesc(init, key), key)
  }

  /**
   Sorting by non-increasing key and keeping the first `k` selects a top-`k`:
   an element left out leaves the selection full, and every selected element
   has a key at least as large as the left-out one.
   */
  lemma TopK<T>(s: seq<T>, key: T -> int, k: nat, x: T)
    requires x in s
    requires x !in Take(SortDesc(s, key), k)
    ensures |Take(SortDesc(s, key), k)| == k
    ensures forall y :: y in Take(SortDesc(s, key), k) ==> key(y) >= key(x)
  {
    var sorted := SortDesc(s, key);
    var top := Take(sorted, k);
    assert x in multiset(sorted);
    var i :| 0 <= i < |sorted| && sorted[i] == x;
    assert i >= |top|;
    forall y | y in top
      ensures key(y) >= key(x)
    {
      var j :| 0 <= j < |top| && top[j] == y;
      assert sorted[j] == y;
    }
  }
}

=== FILE: tally.dfy ===
/**
 Counting by key in first-seen order: the model of the dashboard's
 `Record<string, ...>` accumulators whose `Object.entries` / `Object.values`
 come back in key-insertion order.
 */
module Tally {
  import opened Wrappers
  import opened Seqs

  /** One key of the record, the payload stored when the key was first seen, and its counter. */
  datatype Bucket<K, V> = Bucket(key: K, info: V, count: nat)

  /** One observation: the key to count and the payload to keep for a new key. */
  datatype Sample<K, V> = Sample(key: K, info: V)

  function Keys<K, V>(t: seq<Bucket<K, V>>): (ks: seq<K>)
    ensures |ks| == |t|
    ensures forall i :: 0 <= i < |t| ==> ks[i] == t[i].key
  {
    seq(|t|, i requires 0 <= i < |t| => t[i].key)
  }

  /** The counter stored for `k`, or 0 when `k` was never seen (`record[k] || 0`). */
  function CountOf<K(==), V>(t: seq<Bucket<K, V>>, k: K): nat
    decreases |t|
  {
    if t == [] then 0 else if t[0].key == k then t[0].count else CountOf(t[1..], k)
  }

  /** Sum of all counters. */
  function Total<K, V>(t: seq<Bucket<K, V>>): nat
    decreases |t|
  {
    if t == [] then 0 else t[0].count + Total(t[1..])
  }

  /** Well-formed record: distinct keys, every counter positive. */
  predicate Valid<K(==), V>(t: seq<Bucket<K, V>>) {
    && Distinct(Keys(t))
    && forall i :: 0 <= i < |t| ==> t[i].count >= 1
  }

  /** The (key, payload) pair of every bucket, in insertion order. */
  function Samples<K, V>(t: seq<Bucket<K, V>>): (ss: seq<Sample<K, V>>)
    ensures |ss| == |t|
    ensures forall i :: 0 <= i < |t| ==> ss[i] == Sample(t[i].key, t[i].info)
  {
    seq(|t|, i requires 0 <= i < |t| => Sample(t[i].key, t[i].info))
  }

  /**
   `record[k] = (record[k] || 0) + 1`, creating the entry at the end of the
   insertion order when `k` is new.
   */
  function Bump<K(==), V>(t: seq<Bucket<K, V>>, k: K, v: V): (r: seq<Bucket<K, V>>)
    ensures |r| == if k in Keys(t) then |t| else |t| + 1
    decreases |t|
  {
    if t == [] then [Bucket(k, v, 1)]
    else if t[0].key == k then [t[0].(count := t[0].count + 1)] + t[1..]
    else
      assert k in Keys(t) <==> k in Keys(t[1..]) by {
        assert Keys(t) == [t[0].key] + Keys(t[1..]);
      }
      [t[0]] + Bump(t[1..], k, v)
  }

  /** Bumping `k` adds one to the counter of `k` and leaves every other counter alone. */
  lemma {:induction false} BumpCount<K, V>(t: seq<Bucket<K, V>>, k: K, v: V, g: K)
    ensures CountOf(Bump(t, k, v), g) == CountOf(t, g) + (if g == k then 1 else 0)
    decreases |t|
  {
    if t != [] && t[0].key != k {
      BumpCount(t[1..], k, v, g);
    }
  }

  lemma {:induction false} BumpTotal<K, V>(t: seq<Bucket<K, V>>, k: K, v: V)
    ensures Total(Bump(t, k, v)) == Total(t) + 1
    decreases |t|
  {
    if t == [] {
    } else if t[0].key == k {
      assert Bump(t, k, v)[1..] == t[1..];
    } else {
      BumpTotal(t[1..], k, v);
    }
  }

  /** A known key keeps its place; a new key is appended to the insertion order. */
  lemma {:induction false} BumpKeys<K, V>(t: seq<Bucket<K, V>>, k: K, v: V)
    ensures Keys(Bump(t, k, v)) == if k in Keys(t) then Keys(t) else Keys(t) + [k]
    decreases |t|
  {
    if t != [] {
      assert t == [t[0]] + t[1..];
      KeysCons(t[0], t[1..]);
      if t[0].key == k {
        KeysCons(t[0].(count := t[0].count + 1), t[1..]);
      } else {
        BumpKeys(t[1..], k, v);
        KeysCons(t[0], Bump(t[1..], k, v));
      }
    }
  }

  /** The keys of a record with one more bucket in front. */
  lemma KeysCons<K, V>(b: Bucket<K, V>, t: seq<Bucket<K, V>>)
    ensures Keys([b] + t) == [b.key] + Keys(t)
  {
    assert forall i :: 1 <= i < |t| + 1 ==> ([b] + t)[i] == t[i - 1];
  }

  /** Bumping keeps keys distinct and counters positive. */
  lemma {:induction false} BumpValid<K, V>(t: seq<Bucket<K, V>>, k: K, v: V)
    requires Valid(t)
    ensures Valid(Bump(t, k, v))
    decreases |t|
  {
    BumpKeys(t, k, v);
    if t != [] && t[0].key != k {
      assert Keys(t) == [t[0].key] + Keys(t[1..]);
      BumpValid(t[1..], k, v);
    }
  }

  /** A bucket's payload is either an older bucket's payload or the one just offered for `k`. */
  lemma {:induction false} BumpSamples<K, V>(t: seq<Bucket<K, V>>, k: K, v: V)
    ensures forall i :: 0 <= i < |Bump(t, k, v)| ==> Samples(Bump(t, k, v))[i] in Samples(t) + [Sample(k, v)]
    decreases |t|
  {
    if t == [] {
    } else if t[0].key == k {
      assert Samples(Bump(t, k, v)) == Samples(t);
    } else {
      var tail := t[1..];
      BumpSamples(tail, k, v);
      var r, rest := Bump(t, k, v), Bump(tail, k, v);
      assert r == [t[0]] + rest;
      forall i | 0 <= i < |r|
        ensures Samples(r)[i] in Samples(t) + [Sample(k, v)]
      {
        if i == 0 {
          assert Samples(r)[0] == Samples(t)[0];
        } else {
          assert Samples(r)[i] == Samples(rest)[i - 1];
          var x := Samples(rest)[i - 1];
          if x != Sample(k, v) {
            var j :| 0 <= j < |tail| && Samples(tail)[j] == x;
            assert Samples(t)[j + 1] == x;
          }
        }
      }
    }
  }

  /** Number of samples in `s` with key `k`. */
  function KeyCount<K(==), V>(s: seq<Sample<K, V>>, k: K): nat
    decreases |s|
  {
    if s == [] then 0 else (if s[0].key == k then 1 else 0) + KeyCount(s[1..], k)
  }

  lemma {:induction false} KeyCountSnoc<K, V>(s: seq<Sample<K, V>>, x: Sample<K, V>, k: K)
    ensures KeyCount(s + [x], k) == KeyCount(s, k) + (if x.key == k then 1 else 0)
    decreases |s|
  {
    if s == [] {
      assert [x][1..] == [];
    } else {
      assert (s + [x])[1..] == s[1..] + [x];
      KeyCountSnoc(s[1..], x, k);
    }
  }

  /**
   Folds `Bump` over the samples from left to right, as `forEach` does over
   an array into an initially empty record.
   */
  function Collect<K(==), V>(s: seq<Sample<K, V>>): (r: seq<Bucket<K, V>>)
    decreases |s|
  {
    if s == [] then [] else Bump(Collect(s[..|s| - 1]), s[|s| - 1].key, s[|s| - 1].info)
  }

  /**
   The collected record counts exactly: each key's counter is the number of
   samples with that key, the counters add up to the number of samples, keys
   are distinct, every sampled key is present, and every stored payload is
   one that was sampled with its key.
   */
  lemma {:induction false} CollectSound<K, V>(s: seq<Sample<K, V>>)
    ensures Valid(Collect(s))
    ensures Total(Collect(s)) == |s|
    ensures forall k :: CountOf(Collect(s), k) == KeyCount(s, k)
    ensures forall i :: 0 <= i < |s| ==> s[i].key in Keys(Collect(s))
    ensures forall i :: 0 <= i < |Collect(s)| ==> Samples(Collect(s))[i] in s
    decreases |s|
  {
    if s != [] {
      var p := s[..|s| - 1];
      var x := s[|s| - 1];
      var t := Collect(p);
      assert s == p + [x];
      CollectSound(p);
      BumpValid(t, x.key, x.info);
      BumpTotal(t, x.key, x.info);
      BumpKeys(t, x.key, x.info);
      BumpSamples(t, x.key, x.info);
      forall k
        ensures CountOf(Collect(s), k) == KeyCount(s, k)
      {
        BumpCount(t, x.key, x.info, k);
        KeyCountSnoc(p, x, k);
      }
      forall i | 0 <= i < |s|
        ensures s[i].key in Keys(Collect(s))
      {
        if i < |p| {
          assert s[i] == p[i];
        }
      }
      forall i | 0 <= i < |Collect(s)|
        ensures Samples(Collect(s))[i] in s
      {
        assert Samples(Collect(s))[i] in Samples(t) + [x];
      }
    }
  }

  /** No sample carries key `k`. */
  predicate Unkeyed<K(==), V>(s: seq<Sample<K, V>>, k: K)
  {
    forall j :: 0 <= j < |s| ==> s[j].key != k
  }

  /**
   The payload of the first sample with key `k`, if there is one: what the
   heatmap keeps, since a later sample with the same key leaves the stored
   payload alone.
   */
  function FirstInfo<K(==), V>(s: seq<Sample<K, V>>, k: K): (r: Option<V>)
    ensures r.None? <==> Unkeyed(s, k)
    ensures r.Some? ==> exists j :: 0 <= j < |s| && s[j] == Sample(k, r.value) && Unkeyed(s[..j], k)
    decreases |s|
  {
    if s == [] then None
    else if s[0].key == k then
      assert s[0] == Sample(k, s[0].info) && s[..0] == [];
      Some(s[0].info)
    else
      var r := FirstInfo(s[1..], k);
      assert forall j :: 1 <= j < |s| ==> s[j] == s[1..][j - 1];
      assert r.Some? ==> exists j :: 0 <= j < |s| && s[j] == Sample(k, r.value) && Unkeyed(s[..j], k) by {
        if r.Some? {
          var j :| 0 <= j < |s| - 1 && s[1..][j] == Sample(k, r.value) && Unkeyed(s[1..][..j], k);
          assert s[..j + 1] == [s[0]] + s[1..][..j];
        }
      }
      r
  }

  /** A later sample only matters for a key not seen before. */
  lemma {:induction false} FirstInfoSnoc<K, V>(p: seq<Sample<K, V>>, x: Sample<K, V>, k: K)
    ensures FirstInfo(p + [x], k)
         == if FirstInfo(p, k).Some? then FirstInfo(p, k) else if x.key == k then Some(x.info) else None
    decreases |p|
  {
    if p != [] {
      assert (p + [x])[1..] == p[1..] + [x];
      FirstInfoSnoc(p[1..], x, k);
    }
  }

  /** Bumping leaves every existing bucket's key and payload alone. */
  lemma {:induction false} BumpPayloads<K, V>(t: seq<Bucket<K, V>>, k: K, v: V)
    ensures forall i :: 0 <= i < |t| ==> Bump(t, k, v)[i].key == t[i].key && Bump(t, k, v)[i].info == t[i].info
    decreases |t|
  {
    if t != [] && t[0].key != k {
      var tail := t[1..];
      var rest := Bump(tail, k, v);
      BumpPayloads(tail, k, v);
      assert Bump(t, k, v) == [t[0]] + rest;
      forall i | 1 <= i < |t|
        ensures Bump(t, k, v)[i].key == t[i].key && Bump(t, k, v)[i].info == t[i].info
      {
        assert Bump(t, k, v)[i] == rest[i - 1];
        assert t[i] == tail[i - 1];
      }
    }
  }

  /** A new key is appended with the offered payload and a counter of one. */
  lemma {:induction false} BumpNew<K, V>(t: seq<Bucket<K, V>>, k: K, v: V)
    requires k !in Keys(t)
    ensures Bump(t, k, v)[|t|] == Bucket(k, v, 1)
    decreases |t|
  {
    if t != [] {
      assert Keys(t) == [t[0].key] + Keys(t[1..]);
      BumpNew(t[1..], k, v);
      assert Bump(t, k, v) == [t[0]] + Bump(t[1..], k, v);
    }
  }

  /**
   Every bucket of the collected record keeps the payload of the first
   sample with its key.
   */
  lemma {:induction false} CollectFirstSeen<K, V>(s: seq<Sample<K, V>>)
    ensures forall i :: 0 <= i < |Collect(s)| ==> FirstInfo(s, Collect(s)[i].key) == Some(Collect(s)[i].info)
    decreases |s|
  {
    if s != [] {
      var p := s[..|s| - 1];
      assert s == p + [s[|s| - 1]];
      CollectFirstSeen(p);
      CollectKeys(p);
      FirstSeenStep(s, p, s[|s| - 1]);
    }
  }

  /** Every sampled key has a counter in the collected record. */
  lemma CollectKeys<K, V>(s: seq<Sample<K, V>>)
    ensures forall j :: 0 <= j < |s| ==> s[j].key in Keys(Collect(s))
  {
    CollectSound(s);
  }

  /** One more sample keeps every payload the first one seen under its key. */
  lemma FirstSeenStep<K, V>(s: seq<Sample<K, V>>, p: seq<Sample<K, V>>, x: Sample<K, V>)
    requires s == p + [x]
    requires forall i :: 0 <= i < |Collect(p)| ==> FirstInfo(p, Collect(p)[i].key) == Some(Collect(p)[i].info)
    requires forall j :: 0 <= j < |p| ==> p[j].key in Keys(Collect(p))
    ensures forall i :: 0 <= i < |Collect(s)| ==> FirstInfo(s, Collect(s)[i].key) == Some(Collect(s)[i].info)
  {
    assert s[..|s| - 1] == p;
    assert Collect(s) == Bump(Collect(p), x.key, x.info);
    BumpFirstSeen(p, x, Collect(p));
  }

  /** Bumping a record by one more sample keeps it faithful to the first payloads seen. */
  lemma BumpFirstSeen<K, V>(p: seq<Sample<K, V>>, x: Sample<K, V>, t: seq<Bucket<K, V>>)
    requires forall i :: 0 <= i < |t| ==> FirstInfo(p, t[i].key) == Some(t[i].info)
    requires forall j :: 0 <= j < |p| ==> p[j].key in Keys(t)
    ensures var r := Bump(t, x.key, x.info);
      forall i :: 0 <= i < |r| ==> FirstInfo(p + [x], r[i].key) == Some(r[i].info)
  {
    var r := Bump(t, x.key, x.info);
    BumpKeys(t, x.key, x.info);
    BumpPayloads(t, x.key, x.info);
    forall i | 0 <= i < |r|
      ensures FirstInfo(p + [x], r[i].key) == Some(r[i].info)
    {
      FirstInfoSnoc(p, x, r[i].key);
      if i >= |t| {
        BumpNew(t, x.key, x.info);
      }
    }
  }

  /** In a well-formed record the counter looked up for a bucket's key is that bucket's own. */
  lemma {:induction false} CountOfMember<K, V>(t: seq<Bucket<K, V>>, b: Bucket<K, V>)
    requires Valid(t)
    requires b in t
    ensures CountOf(t, b.key) == b.count
    decreases |t|
  {
    if t[0] != b {
      var i :| 0 <= i < |t| && t[i] == b;
      assert Keys(t)[0] == t[0].key && Keys(t)[i] == b.key;
      assert t[0].key != b.key;
      assert Keys(t[1..]) == Keys(t)[1..];
      assert b in t[1..];
      CountOfMember(t[1..], b);
    }
  }

  lemma {:induction false} KeyCountAppend<K, V>(s: seq<Sample<K, V>>, u: seq<Sample<K, V>>, k: K)
    ensures KeyCount(s + u, k) == KeyCount(s, k) + KeyCount(u, k)
    decreases |s|
  {
    if s == [] {
      assert s + u == u;
    } else {
      assert (s + u)[1..] == s[1..] + u;
      KeyCountAppend(s[1..], u, k);
    }
  }

  /** Reordering a well-formed record keeps its keys distinct. */
  lemma ValidPermutation<K, V>(t: seq<Bucket<K, V>>, r: seq<Bucket<K, V>>)
    requires Valid(t) && multiset(r) == multiset(t)
    ensures Distinct(Keys(r))
  {
    forall i, j | 0 <= i < j < |t|
      ensures t[i] != t[j]
    {
      assert Keys(t)[i] != Keys(t)[j];
    }
    DistinctPermutation(t, r);
    forall i, j | 0 <= i < j < |r|
      ensures Keys(r)[i] != Keys(r)[j]
    {
      assert r[i] in multiset(r) && r[j] in multiset(r);
      var a :| 0 <= a < |t| && t[a] == r[i];
      var b :| 0 <= b < |t| && t[b] == r[j];
      if a < b {
        assert Keys(t)[a] != Keys(t)[b];
      } else {
        assert Keys(t)[b] != Keys(t)[a];
      }
    }
  }

  /** The first `n` buckets of a well-formed record ranked by counter carry distinct keys. */
  lemma TopKeysDistinct<K, V>(t: seq<Bucket<K, V>>, n: nat)
    requires Valid(t)
    ensures var top := Take(SortDesc(t, CountKey), n);
      forall i, j :: 0 <= i < j < |top| ==> top[i].key != top[j].key
  {
    var sorted := SortDesc(t, CountKey);
    ValidPermutation(t, sorted);
    var top := Take(sorted, n);
    forall i, j | 0 <= i < j < |top|
      ensures top[i].key != top[j].key
    {
      assert top[i] == sorted[i] && top[j] == sorted[j];
      assert Keys(sorted)[i] != Keys(sorted)[j];
    }
  }

  /** The counter of a bucket as a sort key. */
  function CountKey<K, V>(b: Bucket<K, V>): int {
    b.count
  }
}

=== FILE: text.dfy ===
/**
 String helpers the dashboard relies on: ASCII lower-casing (`toLowerCase`),
 substring search (`includes`) and decimal rendering of a natural number
 (template literals such as `user_${i}`).
 */
module Text {

  /** ASCII lower-casing of one character; every other character is kept. */
  function LowerChar(c: char): char {
    if 'A' <= c <= 'Z' then (c as int + 32) as char else c
  }

  /** `String.prototype.toLowerCase`, restricted to ASCII letters. */
  function Lower(s: string): (r: string)
    ensures |r| == |s|
    ensures forall i :: 0 <= i < |s| ==> r[i] == LowerChar(s[i])
  {
    seq(|s|, i requires 0 <= i < |s| => LowerChar(s[i]))
  }

  /** `sub` sits in `s` starting at index `i`. */
  ghost predicate OccursAt(s: string, sub: string, i: int) {
    0 <= i && i + |sub| <= |s| && s[i..i + |sub|] == sub
  }

  /** `String.prototype.includes`: scans `s` from the left for `sub`. */
  predicate Contains(s: string, sub: string)
    decreases |s|
  {
    if |sub| > |s| then false
    else if s[..|sub|] == sub then true
    else Contains(s[1..], sub)
  }

  /** The scan finds `sub` exactly when `sub` occurs somewhere in `s`. */
  lemma {:induction false} ContainsIff(s: string, sub: string)
    ensures Contains(s, sub) <==> exists i :: OccursAt(s, sub, i)
    decreases |s|
  {
    if |sub| > |s| {
      assert forall i :: !OccursAt(s, sub, i);
    } else if s[..|sub|] == sub {
      assert OccursAt(s, sub, 0);
    } else {
      assert |s| > 0;
      // An occurrence in `s` is one in `s[1..]` shifted by one, and back.
      forall i | OccursAt(s, sub, i)
        ensures i != 0 && OccursAt(s[1..], sub, i - 1)
      {
        assert s[1..][i - 1..i - 1 + |sub|] == s[i..i + |sub|];
      }
      forall j | OccursAt(s[1..], sub, j)
        ensures OccursAt(s, sub, j + 1)
      {
        assert s[1..][j..j + |sub|] == s[j + 1..j + 1 + |sub|];
      }
      ContainsIff(s[1..], sub);
    }
  }

  /** The empty string is found in every string. */
  lemma ContainsEmpty(s: string)
    ensures Contains(s, "")
  {
  }

  function DigitChar(d: nat): char
    requires d < 10
  {
    "0123456789"[d]
  }

  /** Decimal rendering of `n` without leading zeros. */
  function NatToString(n: nat): (r: string)
    ensures |r| >= 1
    ensures forall i :: 0 <= i < |r| ==> '0' <= r[i] <= '9'
    decreases n
  {
    if n < 10 then [DigitChar(n)] else NatToString(n / 10) + [DigitChar(n % 10)]
  }

  /** The ten digit characters are distinct. */
  lemma DigitCharInjective(a: nat, b: nat)
    requires a < 10 && b < 10
    ensures DigitChar(a) == DigitChar(b) ==> a == b
  {
  }

  /** A number of two or more digits renders as its leading digits followed by its last one. */
  lemma NatToStringSnoc(n: nat)
    requires n >= 10
    ensures var s := NatToString(n);
      s[..|s| - 1] == NatToString(n / 10) && s[|s| - 1] == DigitChar(n % 10)
  {
    var p := NatToString(n / 10);
    assert (p + [DigitChar(n % 10)])[..|p|] == p;
  }

  /** A rendering is one character long exactly for a single digit. */
  lemma NatToStringLength(n: nat)
    ensures |NatToString(n)| == 1 <==> n < 10
  {
  }

  /** Different numbers render differently. */
  lemma {:induction false} NatToStringInjective(m: nat, n: nat)
    ensures NatToString(m) == NatToString(n) ==> m == n
    decreases m
  {
    var a, b := NatToString(m), NatToString(n);
    if a == b {
      NatToStringLength(m);
      NatToStringLength(n);
      if m < 10 {
        DigitCharInjective(m, n);
      } else {
        NatToStringSnoc(m);
        NatToStringSnoc(n);
        DigitCharInjective(m % 10, n % 10);
        NatToStringInjective(m / 10, n / 10);
      }
    }
  }
}

=== FILE: types.dfy ===
/**
 The entities of the fraud-detection dashboard and its fixed configuration
 (`types.ts` and `SYSTEM_CONFIG`). Monetary amounts, coordinates, weights
 and scores are `real`; epoch-millisecond timestamps are `int`.
 */
module Types {
  import opened Wrappers

  datatype Decision = Approve | Block | ManualReview

  /** Rule identifiers; the engine raises the first four, the last two are never produced. */
  datatype RiskFlag = ImpossibleTravel | VelocitySpike | NewDevice | HighValue | RiskyGeo | PatternMismatch

  datatype LogSeverity = Info | Warn | Error | Critical

  datatype Location = Location(lat: real, lng: real, city: string, country: string)

  datatype Device = Device(id: string, kind: string, os: string, ip: string)

  datatype Transaction = Transaction(
    id: string,
    timestamp: int,
    userId: string,
    amount: real,
    currency: string,
    merchant: string,
    location: Location,
    device: Device)

  /** Where and when a user was last seen. */
  datatype LastSeen = LastSeen(lat: real, lng: real, timestamp: int)

  /** The behavioural baseline the engine keeps per user. */
  datatype UserHistory = UserHistory(
    userId: string,
    lastLocation: LastSeen,
    lastDeviceIds: seq<string>,
    avgTransactionValue: real,
    recentTransactionCount: nat)

  /** A named weighting of the rule score against the model score. */
  datatype Strategy = Strategy(name: string, version: string, mlWeight: real, ruleWeight: real, description: string)

  datatype RiskAnalysis = RiskAnalysis(
    transactionId: string,
    score: int,
    decision: Decision,
    flags: seq<RiskFlag>,
    ruleOutput: int,
    mlOutput: int,
    processingTimeMs: real,
    isFallback: bool,
    timestamp: int,
    strategyName: string,
    ambiguitySignal: Option<string>)

  /** A transaction together with the engine's verdict on it, as the dashboard lists them. */
  datatype StreamItem = StreamItem(tx: Transaction, analysis: RiskAnalysis)

  datatype LogEntry = LogEntry(id: string, timestamp: int, kind: string, severity: LogSeverity, message: string)

  // SYSTEM_CONFIG
  const LatencyBudgetMs: int := 100
  const FraudThresholdBlock: real := 85.0
  const FraudThresholdReview: real := 60.0
  const VelocityWindowMs: int := 60000
  const SpeedOfLightKmh: real := 1000.0
  const MaxStreamSize: nat := 50

  /** `Math.round`: the nearest integer, halves rounded towards positive infinity. */
  function Round(x: real): (r: int)
    ensures x - 0.5 < r as real <= x + 0.5
  {
    (x + 0.5).Floor
  }

  /** Rounding a whole number gives it back. */
  lemma RoundWhole(n: int)
    ensures Round(n as real) == n
  {
    assert (n as real + 0.5).Floor == n;
  }

  function MinInt(a: int, b: int): int {
    if a <= b then a else b
  }

  function MinReal(a: real, b: real): real {
    if a <= b then a else b
  }

  function MaxReal(a: real, b: real): real {
    if a >= b then a else b
  }
}

=== FILE: wrappers.dfy ===
/** Optional values: the model's stand-in for `undefined` / `null` in the dashboard. */
module Wrappers {

  datatype Option<+T> = None | Some(value: T)
}
